=== FILE: README.md ===
# Flowpilot inputs, flow builder, shared flow vocabulary and SAML provider handling

This project models the following parts of the hanko backend:

- **Flow inputs** (`backend/flowpilot/input.go`). These are the input fields a flow method declares:
  - their factories and fluent setters;
  - the per-field validator that runs when an action is submitted;
  - the public view of a field that a state's response shows.
- **The flow builder** (`backend/flowpilot/builder.go`). It collects, per state, the transitions (methods) offered there, plus the initial, error and end states and the time-to-live.
- **The three shared name vocabularies** the login, registration and profile flows key on:
  - state names;
  - action names;
  - stash paths (the keys of the per-flow JSON stash).
- **The decision logic of the SAML handler** (`backend/ee/saml/handler.go`):
  - which configured identity providers are started;
  - how database providers are merged in;
  - how a provider is chosen for a domain;
  - when a failed sign-in reaches the audit log;
  - where failures and callbacks redirect.

Modules:

- `Wrappers`: `Option` and `Result`, plus map lookup that returns an `Option`.
- `Flowpilot`: the shared state, action, method and error-code types.
- `Utf8`: Go's `len` on strings, which counts UTF-8 bytes.
- `EmailPattern`: the validator's e-mail expression.
  - It is given both as a declarative predicate and as a scanning decision procedure.
  - The two are proved equal.
- `Inputs`: input fields and their validation.
  - The validator is modelled in two readings.
  - One mirrors the source's if-chain (`Check`, `Validate`).
  - The other is a reference reading: "the first violated rule in the fixed rule order decides the error code".
  - They are proved equal, and the reference reading is then used to state one consequence per rule.
- `Builder`: the flow builder.
- `Vocabulary`: predicates over name lists, plus the concatenation lemmas used to prove long literal lists duplicate-free.
- `StateNames`, `ActionNames`, `StashPaths`: the declared constants, with these proofs:
  - no two share a value;
  - every value is lower-case snake case;
  - for the stash, no path is a dotted prefix of another. If one were, writing one path would overwrite another path's value.
- `GoStrings`: Go's `unicode.IsSpace` and `strings.TrimSpace`.
- `SamlHandler`: provider start-up and merge, lookup by domain, the audit decision and the redirect targets.

How the Go source is represented:

- **Pointers and mutation.**
  - A nil pointer is `None`.
  - A mutating setter is a function that returns the updated record.
  - A nil dereference inside `validate` is the outcome `Panicked`.
- **Start-up failure.** A provider that fails to initialise at start-up makes the handler's constructor panic. This is the `Failure` result of `ConfiguredProviders`.
- **Two behaviours worth knowing:**
  - `Build` performs no validation of the flow (builder.go lines 50-59; see `Builder.BuildDoesNotValidate`).
  - The public view copies the value whatever the preserve flag says (input.go lines 265-276; see `Inputs.PublicViewShowsUnpreservedValue`).

## Model

| member | source | states |
|---|---|---|
| Inputs.InputTypeNamesDistinct | backend/flowpilot/input.go:12-18 | The five input-type spellings "string", "email", "number", "password" and "json" are distinct: two types with the same wire name are the same type. |
| Wrappers.Lookup | backend/flowpilot/input.go:211-217 | A value is found exactly when the key is present, and it is the stored value; an absent key is Go's nil pointer. |
| Utf8.ByteLen | backend/flowpilot/input.go:224-251 | The length Go's `len` reports is between the number of characters and four times that, and it is zero only for the empty string. |
| Utf8.ByteLenIsLengthIffAscii | backend/flowpilot/input.go:239-251 | The byte length equals the character count exactly when every character is ASCII, so the bounds are not character limits in general. |
| EmailPattern.MatchEmailCorrect | backend/flowpilot/input.go:253-259 | The scanning check accepts a value exactly when the whole value matches local-part '@' domain '.' two-or-more-letter top-level part, with the source's character classes. |
| Inputs.NewInput | backend/flowpilot/input.go:76-87 | A new field has the given name, type and persist flag, and nothing else configured: no value, bounds, flags, error, states or stash comparison. |
| Inputs.StringInput | backend/flowpilot/input.go:90-92 | A string field persists its value by default and is otherwise unconfigured. |
| Inputs.EmailInput | backend/flowpilot/input.go:95-97 | An e-mail field persists its value by default and is otherwise unconfigured. |
| Inputs.NumberInput | backend/flowpilot/input.go:100-102 | A number field persists its value by default and is otherwise unconfigured. |
| Inputs.PasswordInput | backend/flowpilot/input.go:105-107 | A password field does not persist its value and is otherwise unconfigured. |
| Inputs.JSONInput | backend/flowpilot/input.go:110-112 | A JSON field does not persist its value and is otherwise unconfigured. |
| Inputs.Factory | backend/flowpilot/input.go:89-112 | Across the five factories, a field persists its value by default exactly when it is a string, e-mail or number field. |
| Inputs.MinLength | backend/flowpilot/input.go:115-118 | Sets the minimum length and leaves every other attribute as it was. |
| Inputs.MaxLength | backend/flowpilot/input.go:121-124 | Sets the maximum length and leaves every other attribute as it was. |
| Inputs.Required | backend/flowpilot/input.go:127-130 | Sets the required flag and leaves every other attribute as it was. |
| Inputs.Hidden | backend/flowpilot/input.go:133-136 | Sets the hidden flag and leaves every other attribute as it was. |
| Inputs.Preserve | backend/flowpilot/input.go:140-143 | Sets the preserve flag and leaves every other attribute as it was. |
| Inputs.Persist | backend/flowpilot/input.go:146-149 | Sets the persist flag and leaves every other attribute as it was. |
| Inputs.ConditionalIncludeOnState | backend/flowpilot/input.go:152-155 | Replaces the list of including states and leaves every other attribute as it was. |
| Inputs.CompareWithStash | backend/flowpilot/input.go:173-176 | Sets the compare-with-stash flag and leaves every other attribute as it was. |
| Inputs.SetValue | backend/flowpilot/input.go:179-182 | Sets the echoed value and leaves every other attribute as it was. |
| Inputs.SetError | backend/flowpilot/input.go:190-192 | Sets (or clears) the error code and leaves every other attribute as it was. |
| Inputs.Listed | backend/flowpilot/input.go:158-170 | The scan over the including states finds a state exactly when it is in the list. |
| Inputs.IncludedIn | backend/flowpilot/input.go:158-170 | A field applies on a state exactly when its including-state list is empty or names that state. |
| Inputs.IsIncludedOnState | backend/flowpilot/input.go:158-170 | The same inclusion test, read from a field's own list. |
| Inputs.Check | backend/flowpilot/input.go:219-261 | A field switched off on the state passes. A required field without a non-empty value fails with ValueMissingError. Every rejection carries one of the five validation codes. The source dereferences nil only for an absent value of a non-JSON field. |
| Inputs.Validate | backend/flowpilot/input.go:205-262 | A skipped field is accepted unchanged. A missing required value records ValueMissingError. Acceptance leaves the field untouched. Rejection changes only the field's error code, to a validation code. |
| Inputs.FirstViolationOfRuleOrder | backend/flowpilot/input.go:224-259 | The first violated rule in the order required, compare, minimum, maximum, e-mail, spelled out case by case. |
| Inputs.CheckFollowsRuleOrder | backend/flowpilot/input.go:219-261 | The if-chain equals the reference reading. A skipped field passes. Otherwise the first violated rule decides the code. With no violation the field passes, unless a bound or the e-mail rule meets an absent value. |
| Inputs.ValidateReadsOnlyOwnName | backend/flowpilot/input.go:211-217 | The outcome depends on the submitted data and the stash only through the entries under the field's own name. |
| Inputs.CompareWithStashRule | backend/flowpilot/input.go:229-232 | A submitted value that differs from the stashed one fails with ValueInvalidError once the earlier rules pass. The flag has no effect when either value is absent. |
| Inputs.JsonStopsAfterCompare | backend/flowpilot/input.go:234-237 | A JSON field that passes the required and compare rules is accepted; no bound is checked. |
| Inputs.LengthRules | backend/flowpilot/input.go:239-251 | Too few bytes fails with ValueTooShortError, even when the value also exceeds the maximum. Meeting the minimum but exceeding the maximum fails with ValueTooLongError. |
| Inputs.BoundOnAbsentValuePanics | backend/flowpilot/input.go:239-251 | A length bound on a non-JSON, non-required field that was not submitted dereferences nil. |
| Inputs.EmailRuleDecides | backend/flowpilot/input.go:253-259 | Once the earlier rules pass, an e-mail field is accepted exactly when the value matches the e-mail expression, otherwise it fails with EmailInvalidError. |
| Inputs.RequiredEmailMismatch | backend/flowpilot/input.go:224-259 | A required e-mail field with a non-empty, non-matching value records EmailInvalidError. |
| Inputs.NotAnEmailIsRejected | backend/flowpilot/input.go:253-259 | "not-an-email" submitted to a required e-mail field records EmailInvalidError. |
| Inputs.MinLengthCountsBytes | backend/flowpilot/input.go:239-244 | A one-character value of two UTF-8 bytes meets a minimum length of two. |
| Inputs.RequiredFalseActsAsUnset | backend/flowpilot/input.go:224-227 | Required set to false validates exactly as required left unset. |
| Inputs.PresentationIgnoredByValidate | backend/flowpilot/input.go:205-262 | The hidden, preserve and persist flags and the echoed value never change whether validation panics, accepts or which code it records. |
| Inputs.IncludeOnStateReplaces | backend/flowpilot/input.go:152-170 | A second call to set the including states replaces the first list rather than extending it, and only the latest list decides inclusion. |
| Inputs.ToPublicInput | backend/flowpilot/input.go:265-276 | The public view carries the name, type, value, bounds, required and hidden flags and error code of the field. |
| Inputs.PublicViewIgnoresOnlyOptions | backend/flowpilot/input.go:265-276 | Two fields look the same to the client exactly when they differ at most in the preserve, persist, including-states and compare-with-stash options. |
| Inputs.PublicViewShowsUnpreservedValue | backend/flowpilot/input.go:265-276 | A value set on a field with preserve off still appears in its public view. |
| Builder.NewFlow | backend/flowpilot/builder.go:18-23 | A new builder has the path, no states, a zero time-to-live and unset (empty) initial, error and end states. |
| Builder.TTL | backend/flowpilot/builder.go:26-29 | Sets the time-to-live and nothing else. |
| Builder.Transitions | backend/flowpilot/builder.go:32-36 | One transition per method, in the order given. |
| Builder.State | backend/flowpilot/builder.go:32-39 | The state is registered with exactly the given methods, replacing its earlier entry. Every other state keeps its entry. Nothing outside the state map changes. |
| Builder.FixedStates | backend/flowpilot/builder.go:42-47 | Sets the initial, error and end states and nothing else. |
| Builder.Build | backend/flowpilot/builder.go:50-59 | The flow carries the path, state map, fixed states and time-to-live of the builder unchanged. |
| Builder.BuildTransition | backend/flowpilot/builder.go:67-71 | The built transition offers the builder's method. |
| Builder.TransitionsRoundTrip | backend/flowpilot/builder.go:32-39 | The transitions recorded for a state give back exactly its methods, and conversely. |
| Builder.StateLastWriteWins | backend/flowpilot/builder.go:32-39 | Registering a state twice keeps only the second list. |
| Builder.StatesCommute | backend/flowpilot/builder.go:32-39 | Registrations of different states can be made in either order. |
| Builder.FixedStatesLastWriteWins | backend/flowpilot/builder.go:42-47 | A later call to set the fixed states overrides an earlier one entirely. |
| Builder.BuildKeepsRegistrations | backend/flowpilot/builder.go:32-59 | The built flow's states are exactly those registered; the newly registered state carries the methods of its latest registration and every other state keeps its entry. |
| Builder.BuildDoesNotValidate | backend/flowpilot/builder.go:50-59 | A flow whose fixed states are not registered and which offers one action twice in a state is still built. |
| ActionNames.AllActionNamesDistinct | backend/flow_api/flow/shared/const_action_names.go:6-48 | The 43 action names have pairwise different values. |
| ActionNames.AllActionNamesSnakeCase | backend/flow_api/flow/shared/const_action_names.go:6-48 | Every action name is non-empty, lower-case letters and underscores, neither starts nor ends with an underscore, and has no two underscores in a row. |
| ActionNames.KnownSpellings | backend/flow_api/flow/shared/const_action_names.go:7-36 | The values the flows match on ("back", "skip", "continue_with_login_identifier", "thirdparty_oauth") are kept exactly. |
| StateNames.AllStateNamesDistinct | backend/flow_api/flow/shared/state_names.go:6-24 | The 19 state names have pairwise different values. |
| StateNames.AllStateNamesSnakeCase | backend/flow_api/flow/shared/state_names.go:6-24 | Every state name is non-empty lower-case snake case with no doubled underscore. |
| StateNames.KnownSpellings | backend/flow_api/flow/shared/state_names.go:6-23 | The error and success states are "error" and "success". The two profile states whose identifiers carry a "Profile" prefix are spelt without it. |
| StateNames.ThirdPartyOAuthSharesSpelling | backend/flow_api/flow/shared/state_names.go:24 | The third-party OAuth state has the same spelling as the action of that name; only their types keep them apart. |
| StashPaths.AllStashPathsDistinct | backend/flow_api/flow/shared/const_stash_paths.go:4-32 | The 29 stash paths have pairwise different values. |
| StashPaths.AllStashPathsShape | backend/flow_api/flow/shared/const_stash_paths.go:4-32 | Every path is one of the two sticky paths, or a single snake-case key of a length other than that of "sticky". |
| StashPaths.StickyDot | backend/flow_api/flow/shared/const_stash_paths.go:14-15 | "sticky." followed by a snake-case key has its only dot after "sticky". |
| StashPaths.StickyPaths | backend/flow_api/flow/shared/const_stash_paths.go:14-15 | The two passcode paths are nested one level under the "sticky" key. |
| StashPaths.WellShapedPathsDoNotOverlap | backend/flow_api/flow/shared/const_stash_paths.go:4-32 | Any list of well-shaped paths has dots exactly in its sticky paths, contains no "sticky" path, and no entry is a dotted prefix of another. |
| StashPaths.DottedPathsAreSticky | backend/flow_api/flow/shared/const_stash_paths.go:4-32 | Exactly the two sticky paths contain a dot. |
| StashPaths.NoPathOverlaps | backend/flow_api/flow/shared/const_stash_paths.go:4-32 | No stash path is a dotted prefix of another, so writing one path never overwrites another; "sticky" itself is not a path. |
| StashPaths.KnownSpellings | backend/flow_api/flow/shared/const_stash_paths.go:9-19 | The values "user_hat_otp_secret", "mfa_method" and "otp_image_src" are kept exactly, although the identifiers suggest other spellings. |
| GoStrings.TrimLeftSpace | backend/ee/saml/handler.go:208 | The result is a suffix of the input, only white space is cut, and it does not start with white space. |
| GoStrings.TrimRightSpace | backend/ee/saml/handler.go:208 | The result is a prefix of the input, only white space is cut, and it does not end with white space. |
| GoStrings.TrimSpace | backend/ee/saml/handler.go:208 | The result is a contiguous part of the input with only white space cut from both ends. It neither starts nor ends with white space, and it is empty exactly when the input is all white space. |
| GoStrings.TrimSpaceIdempotent | backend/ee/saml/handler.go:208 | Trimming a trimmed string changes nothing. |
| SamlHandler.ToConfig | backend/ee/saml/handler.go:420-427 | A database row becomes a provider configuration with the same enabled flag, name, domain, metadata URL and skip-verification flag. |
| SamlHandler.Enabled | backend/ee/saml/handler.go:41-42 | The enabled configurations: every one kept is enabled and configured, and every enabled configuration is kept. |
| SamlHandler.InitAll | backend/ee/saml/handler.go:41-49 | Initialising a list succeeds exactly when every entry initialises, yielding the providers pointwise in order. |
| SamlHandler.InitAllFailsAtFirst | backend/ee/saml/handler.go:429-433 | On failure the error is that of the first entry whose initialisation fails. |
| SamlHandler.ConfiguredProviders | backend/ee/saml/handler.go:40-49 | Start-up yields at most one provider per configuration. |
| SamlHandler.ConfiguredProvidersAreEnabledOnes | backend/ee/saml/handler.go:40-49 | Start-up initialises exactly the enabled configurations, in order, and fails with the first initialisation error. |
| SamlHandler.Accepted | backend/ee/saml/handler.go:388-397 | The database rows merged in are exactly the enabled ones whose domain no configured provider reports. |
| SamlHandler.MergeRows | backend/ee/saml/handler.go:388-437 | The merge adds at most one provider per row. |
| SamlHandler.MergeRowsInitialisesAccepted | backend/ee/saml/handler.go:388-437 | The merge initialises exactly the accepted rows, in order. |
| SamlHandler.AddDbProviders | backend/ee/saml/handler.go:379-440 | A listing error is returned as is. On success the configured providers come first, unchanged. |
| SamlHandler.AddDbProvidersResult | backend/ee/saml/handler.go:379-440 | The merge succeeds exactly when the listing succeeds and every accepted row initialises. The result is then the configured providers followed by one provider per accepted row, in order. |
| SamlHandler.DuplicateDbDomainsBothAppended | backend/ee/saml/handler.go:388-397 | Rows are only checked against configured providers, so two eligible rows with one domain are both appended. |
| SamlHandler.AcceptsAllEligible | backend/ee/saml/handler.go:388-397 | When every row is enabled and unregistered, every row is accepted. |
| SamlHandler.FirstFrom | backend/ee/saml/handler.go:90-94 | The index found is the first provider from the start position on that reports the domain; none is found only when no such provider exists. |
| SamlHandler.GetProviderByDomain | backend/ee/saml/handler.go:85-97 | An empty list is its own error. A provider is found exactly when some provider reports the domain, and it is the first such provider. Otherwise the error names the domain. |
| SamlHandler.ConfiguredProviderWins | backend/ee/saml/handler.go:85-97 | After the merge, a domain reported by a configured provider still resolves to that provider, whatever the database holds. |
| SamlHandler.AsThirdParty | backend/ee/saml/handler.go:346-348 | The result is the code of the third-party error found along the wrapping chain, under any number of wrappers; there is none exactly when the chain holds no third-party error. |
| SamlHandler.ShouldAudit | backend/ee/saml/handler.go:347-351 | A failure is audited exactly when the third-party error along its wrapping chain (the first one, and the only one the model can hold) has a code other than the server-error code; a failure with no third-party error is never audited. |
| SamlHandler.ErrorRedirectTarget | backend/ee/saml/handler.go:144-147 | Failures redirect to the Referer header when it is present and non-empty, otherwise to the default redirect URL. |
| SamlHandler.BlankRefererIsKept | backend/ee/saml/handler.go:144-147 | The Referer fallback tests only for the empty string: a non-empty Referer of white space alone is used as it is, whereas a callback target of white space alone falls back to the default redirect URL. |
| SamlHandler.CallbackRedirectTarget | backend/ee/saml/handler.go:208-210 | A callback redirects to the recorded target, untrimmed, unless it is blank after trimming white space, in which case to the default redirect URL. |

## Left out

- Reading JSON: the submitted data and the stash are flat maps from a field's name to a string.
  - gjson's `Get` path syntax is not modelled.
  - Neither is the `.Str` coercion of non-string JSON values (numbers and booleans read as an empty string).
- Utf8.ByteLen: Go strings are byte sequences and may hold invalid UTF-8, for instance a value read from the request body or the stash. A Dafny `string` holds only Unicode scalar values, so such values are not represented. On valid UTF-8, `Utf8.ByteLen` is Go's `len` and string equality is Go's byte equality. On invalid UTF-8, Go's `len` counts each stray byte as one.
- EmailPattern.MatchEmailCorrect: holds for valid UTF-8 only. Go's regular expressions read each invalid byte as U+FFFD, which none of the expression's classes accepts.
- GoStrings.TrimSpace: holds for valid UTF-8 only, for the same reason.
- Inputs.SetValue: the value is narrowed to a string. In the source, `setValue` takes and the `value` field holds an arbitrary `interface{}` (input.go lines 53, 67 and 179-182); `Input.value` and `PublicInput.value` are `string` here. The validator itself reads the submitted value as a Go `string`, so it is not affected.
- The getters `getName`, `shouldPersist` and `shouldPreserve` are left out: they only read a field.
- EmailPattern.MatchEmailCorrect: Go's regular-expression engine is not modelled. The one expression the validator uses is written out by hand and proved against its declarative reading.
- Builder.TTL: the `time.Duration` is a natural number of time units. Negative durations and 64-bit overflow are not modelled.
- Builder.Build: Go's maps are shared by reference between the builder and the built flow. The model copies values, so aliasing after `Build` is not represented.
- Builder.State: a state registered with no methods gets an empty list here. Go stores a nil slice, which behaves the same for every read.
- The flow engine, the stash manager and the public flow response that use these types are not part of this model.
- SamlHandler.Error: a third-party error's own cause is not represented. The source attaches causes to third-party errors (backend/ee/saml/handler.go:240 wraps the error built at handler.go:322), but `errors.As` stops at the outermost third-party error, so the cause never changes the audit decision.
- The SAML handler's I/O is not modelled:
  - HTTP binding;
  - sessions;
  - cookies;
  - token exchange;
  - user linking;
  - metadata rendering;
  - the `redirectError` URL construction;
  - the audit logger itself (only the decision to write an entry is modelled).
- Provider initialisation (`initializeServiceProvider`: URL parsing, certificate loading, metadata fetching) and the database listing enter as parameters. The modelled code only sees their success or error.
- SamlHandler.ToConfig: the attribute map copied field by field from a database row (handler.go lines 399-418) is not modelled.
- The value of `thirdparty.ErrorCodeServerError` belongs to a package outside this model. It is taken to be "server_error".
- SamlHandler.AddDbProviders: Go's `append` to the handler's own slice may share its backing array between concurrent requests. The model is purely functional, so no such sharing or race is represented.
- Logging calls (`ctx.Logger()`) are side effects with no influence on the results and are left out.

=== FILE: action_names.dfy ===
/** The action names of the shared flow vocabulary, with their values exactly
    as declared. Each is an `ActionName`, a type distinct from `StateName`, so
    `ActionThirdPartyOAuth` and the state of the same spelling stay apart. */
module ActionNames {
  import opened Flowpilot
  import opened Vocabulary

  const ActionAccountDelete: ActionName := ActionName("account_delete")
  const ActionBack: ActionName := ActionName("back")
  const ActionContinueToLoginOTP: ActionName := ActionName("continue_to_login_otp")
  const ActionContinueToLoginSecurityKey: ActionName := ActionName("continue_to_login_security_key")
  const ActionContinueToOTPSecretCreation: ActionName := ActionName("continue_to_otp_secret_creation")
  const ActionContinueToPasscodeConfirmation: ActionName := ActionName("continue_to_passcode_confirmation")
  const ActionContinueToPasscodeConfirmationRecovery: ActionName := ActionName("continue_to_passcode_confirmation_recovery")
  const ActionContinueToPasskeyRegistration: ActionName := ActionName("continue_to_passkey_registration")
  const ActionContinueToPasswordLogin: ActionName := ActionName("continue_to_password_login")
  const ActionContinueToPasswordRegistration: ActionName := ActionName("continue_to_password_registration")
  const ActionContinueToSecurityKeyCreation: ActionName := ActionName("continue_to_security_key_creation")
  const ActionContinueWithLoginIdentifier: ActionName := ActionName("continue_with_login_identifier")
  const ActionEmailAddressSet: ActionName := ActionName("email_address_set")
  const ActionEmailCreate: ActionName := ActionName("email_create")
  const ActionEmailDelete: ActionName := ActionName("email_delete")
  const ActionEmailSetPrimary: ActionName := ActionName("email_set_primary")
  const ActionEmailVerify: ActionName := ActionName("email_verify")
  const ActionExchangeToken: ActionName := ActionName("exchange_token")
  const ActionOTPCodeValidate: ActionName := ActionName("otp_code_validate")
  const ActionOTPCodeVerify: ActionName := ActionName("otp_code_verify")
  const ActionPasswordCreate: ActionName := ActionName("password_create")
  const ActionPasswordDelete: ActionName := ActionName("password_delete")
  const ActionPasswordLogin: ActionName := ActionName("password_login")
  const ActionPasswordRecovery: ActionName := ActionName("password_recovery")
  const ActionPasswordUpdate: ActionName := ActionName("password_update")
  const ActionRegisterClientCapabilities: ActionName := ActionName("register_client_capabilities")
  const ActionRegisterLoginIdentifier: ActionName := ActionName("register_login_identifier")
  const ActionRegisterPassword: ActionName := ActionName("register_password")
  const ActionResendPasscode: ActionName := ActionName("resend_passcode")
  const ActionSkip: ActionName := ActionName("skip")
  const ActionThirdPartyOAuth: ActionName := ActionName("thirdparty_oauth")
  const ActionUsernameCreate: ActionName := ActionName("username_create")
  const ActionUsernameDelete: ActionName := ActionName("username_delete")
  const ActionUsernameUpdate: ActionName := ActionName("username_update")
  const ActionVerifyPasscode: ActionName := ActionName("verify_passcode")
  const ActionWebauthnCredentialCreate: ActionName := ActionName("webauthn_credential_create")
  const ActionWebauthnCredentialDelete: ActionName := ActionName("webauthn_credential_delete")
  const ActionWebauthnCredentialRename: ActionName := ActionName("webauthn_credential_rename")
  const ActionWebauthnGenerateCreationOptions: ActionName := ActionName("webauthn_generate_creation_options")
  const ActionWebauthnGenerateRequestOptions: ActionName := ActionName("webauthn_generate_request_options")
  const ActionWebauthnVerifyAssertionResponse: ActionName := ActionName("webauthn_verify_assertion_response")
  const ActionWebauthnVerifyAttestationResponse: ActionName := ActionName("webauthn_verify_attestation_response")
  const ActionSessionDelete: ActionName := ActionName("session_delete")

  // The declaration order, written as short consecutive groups so that
  // distinctness and the character classes can be proved group by group.
  const ActionGroup0: seq<ActionName> := [
    ActionAccountDelete, ActionBack, ActionContinueToLoginOTP, ActionContinueToLoginSecurityKey,
    ActionContinueToOTPSecretCreation]
  const ActionGroup1: seq<ActionName> := [
    ActionContinueToPasscodeConfirmation, ActionContinueToPasscodeConfirmationRecovery]
  const ActionGroup2: seq<ActionName> := [
    ActionContinueToPasskeyRegistration, ActionContinueToPasswordLogin,
    ActionContinueToPasswordRegistration]
  const ActionGroup3: seq<ActionName> := [
    ActionContinueToSecurityKeyCreation, ActionContinueWithLoginIdentifier, ActionEmailAddressSet,
    ActionEmailCreate]
  const ActionGroup4: seq<ActionName> := [
    ActionEmailDelete, ActionEmailSetPrimary, ActionEmailVerify, ActionExchangeToken,
    ActionOTPCodeValidate]
  const ActionGroup5: seq<ActionName> := [
    ActionOTPCodeVerify, ActionPasswordCreate, ActionPasswordDelete, ActionPasswordLogin,
    ActionPasswordRecovery]
  const ActionGroup6: seq<ActionName> := [
    ActionPasswordUpdate, ActionRegisterClientCapabilities, ActionRegisterLoginIdentifier,
    ActionRegisterPassword, ActionResendPasscode]
  const ActionGroup7: seq<ActionName> := [
    ActionSkip, ActionThirdPartyOAuth, ActionUsernameCreate, ActionUsernameDelete,
    ActionUsernameUpdate]
  const ActionGroup8: seq<ActionName> := [
    ActionVerifyPasscode, ActionWebauthnCredentialCreate, ActionWebauthnCredentialDelete,
    ActionWebauthnCredentialRename]
  const ActionGroup9: seq<ActionName> := [
    ActionWebauthnGenerateCreationOptions, ActionWebauthnGenerateRequestOptions]
  const ActionGroup10: seq<ActionName> := [
    ActionWebauthnVerifyAssertionResponse, ActionWebauthnVerifyAttestationResponse,
    ActionSessionDelete]

  /** Every action name of the vocabulary, in declaration order. */
  const AllActionNames: seq<ActionName> :=
    ActionGroup0 + ActionGroup1 + ActionGroup2 + ActionGroup3 + ActionGroup4 + ActionGroup5 +
    ActionGroup6 + ActionGroup7 + ActionGroup8 + ActionGroup9 + ActionGroup10

  // Distinctness is proved group by group: each group is pairwise distinct
  // and each pair of groups is disjoint, and DistinctConcat and
  // DisjointConcat join the groups. Over the whole list at once the
  // proof is too large for the verifier.

  lemma DistinctActionGroup0()
    ensures PairwiseDistinct(ActionGroup0)
  {
  }

  lemma DistinctActionGroup1()
    ensures PairwiseDistinct(ActionGroup1)
  {
  }

  lemma DistinctActionGroup2()
    ensures PairwiseDistinct(ActionGroup2)
  {
  }

  lemma DistinctActionGroup3()
    ensures PairwiseDistinct(ActionGroup3)
  {
  }

  lemma DistinctActionGroup4()
    ensures PairwiseDistinct(ActionGroup4)
  {
  }

  lemma DistinctActionGroup5()
    ensures PairwiseDistinct(ActionGroup5)
  {
  }

  lemma DistinctActionGroup6()
    ensures PairwiseDistinct(ActionGroup6)
  {
  }

  lemma DistinctActionGroup7()
    ensures PairwiseDistinct(ActionGroup7)
  {
  }

  lemma DistinctActionGroup8()
    ensures PairwiseDistinct(ActionGroup8)
  {
  }

  lemma DistinctActionGroup9()
    ensures PairwiseDistinct(ActionGroup9)
  {
  }

  lemma DistinctActionGroup10()
    ensures PairwiseDistinct(ActionGroup10)
  {
  }

  lemma DisjointActionGroup0And1()
    ensures Disjoint(ActionGroup0, ActionGroup1)
  {
  }

  lemma DisjointActionGroup0And2()
    ensures Disjoint(ActionGroup0, ActionGroup2)
  {
  }

  lemma DisjointActionGroup0And3()
    ensures Disjoint(ActionGroup0, ActionGroup3)
  {
  }

  lemma DisjointActionGroup0And4()
    ensures Disjoint(ActionGroup0, ActionGroup4)
  {
  }

  lemma DisjointActionGroup0And5()
    ensures Disjoint(ActionGroup0, ActionGroup5)
  {
  }

  lemma DisjointActionGroup0And6()
    ensures Disjoint(ActionGroup0, ActionGroup6)
  {
  }

  lemma DisjointActionGroup0And7()
    ensures Disjoint(ActionGroup0, ActionGroup7)
  {
  }

  lemma DisjointActionGroup0And8()
    ensures Disjoint(ActionGroup0, ActionGroup8)
  {
  }

  lemma DisjointActionGroup0And9()
    ensures Disjoint(ActionGroup0, ActionGroup9)
  {
  }

  lemma DisjointActionGroup0And10()
    ensures Disjoint(ActionGroup0, ActionGroup10)
  {
  }

  lemma DisjointActionGroup1And2()
    ensures Disjoint(ActionGroup1, ActionGroup2)
  {
  }

  lemma DisjointActionGroup1And3()
    ensures Disjoint(ActionGroup1, ActionGroup3)
  {
  }

  lemma DisjointActionGroup1And4()
    ensures Disjoint(ActionGroup1, ActionGroup4)
  {
  }

  lemma DisjointActionGroup1And5()
    ensures Disjoint(ActionGroup1, ActionGroup5)
  {
  }

  lemma DisjointActionGroup1And6()
    ensures Disjoint(ActionGroup1, ActionGroup6)
  {
  }

  lemma DisjointActionGroup1And7()
    ensures Disjoint(ActionGroup1, ActionGroup7)
  {
  }

  lemma DisjointActionGroup1And8()
    ensures Disjoint(ActionGroup1, ActionGroup8)
  {
  }

  lemma DisjointActionGroup1And9()
    ensures Disjoint(ActionGroup1, ActionGroup9)
  {
  }

  lemma DisjointActionGroup1And10()
    ensures Disjoint(ActionGroup1, ActionGroup10)
  {
  }

  lemma DisjointActionGroup2And3()
    ensures Disjoint(ActionGroup2, ActionGroup3)
  {
  }

  lemma DisjointActionGroup2And4()
    ensures Disjoint(ActionGroup2, ActionGroup4)
  {
  }

  lemma DisjointActionGroup2And5()
    ensures Disjoint(ActionGroup2, ActionGroup5)
  {
  }

  lemma DisjointActionGroup2And6()
    ensures Disjoint(ActionGroup2, ActionGroup6)
  {
  }

  lemma DisjointActionGroup2And7()
    ensures Disjoint(ActionGroup2, ActionGroup7)
  {
  }

  lemma DisjointActionGroup2And8()
    ensures Disjoint(ActionGroup2, ActionGroup8)
  {
  }

  lemma DisjointActionGroup2And9()
    ensures Disjoint(ActionGroup2, ActionGroup9)
  {
  }

  lemma DisjointActionGroup2And10()
    ensures Disjoint(ActionGroup2, ActionGroup10)
  {
  }

  lemma DisjointActionGroup3And4()
    ensures Disjoint(ActionGroup3, ActionGroup4)
  {
  }

  lemma DisjointActionGroup3And5()
    ensures Disjoint(ActionGroup3, ActionGroup5)
  {
  }

  lemma DisjointActionGroup3And6()
    ensures Disjoint(ActionGroup3, ActionGroup6)
  {
  }

  lemma DisjointActionGroup3And7()
    ensures Disjoint(ActionGroup3, ActionGroup7)
  {
  }

  lemma DisjointActionGroup3And8()
    ensures Disjoint(ActionGroup3, ActionGroup8)
  {
  }

  lemma DisjointActionGroup3And9()
    ensures Disjoint(ActionGroup3, ActionGroup9)
  {
  }

  lemma DisjointActionGroup3And10()
    ensures Disjoint(ActionGroup3, ActionGroup10)
  {
  }

  lemma DisjointActionGroup4And5()
    ensures Disjoint(ActionGroup4, ActionGroup5)
  {
  }

  lemma DisjointActionGroup4And6()
    ensures Disjoint(ActionGroup4, ActionGroup6)
  {
  }

  lemma DisjointActionGroup4And7()
    ensures Disjoint(ActionGroup4, ActionGroup7)
  {
  }

  lemma DisjointActionGroup4And8()
    ensures Disjoint(ActionGroup4, ActionGroup8)
  {
  }

  lemma DisjointActionGroup4And9()
    ensures Disjoint(ActionGroup4, ActionGroup9)
  {
  }

  lemma DisjointActionGroup4And10()
    ensures Disjoint(ActionGroup4, ActionGroup10)
  {
  }

  lemma DisjointActionGroup5And6()
    ensures Disjoint(ActionGroup5, ActionGroup6)
  {
  }

  lemma DisjointActionGroup5And7()
    ensures Disjoint(ActionGroup5, ActionGroup7)
  {
  }

  lemma DisjointActionGroup5And8()
    ensures Disjoint(ActionGroup5, ActionGroup8)
  {
  }

  lemma DisjointActionGroup5And9()
    ensures Disjoint(ActionGroup5, ActionGroup9)
  {
  }

  lemma DisjointActionGroup5And10()
    ensures Disjoint(ActionGroup5, ActionGroup10)
  {
  }

  lemma DisjointActionGroup6And7()
    ensures Disjoint(ActionGroup6, ActionGroup7)
  {
  }

  lemma DisjointActionGroup6And8()
    ensures Disjoint(ActionGroup6, ActionGroup8)
  {
  }

  lemma DisjointActionGroup6And9()
    ensures Disjoint(ActionGroup6, ActionGroup9)
  {
  }

  lemma DisjointActionGroup6And10()
    ensures Disjoint(ActionGroup6, ActionGroup10)
  {
  }

  lemma DisjointActionGroup7And8()
    ensures Disjoint(ActionGroup7, ActionGroup8)
  {
  }

  lemma DisjointActionGroup7And9()
    ensures Disjoint(ActionGroup7, ActionGroup9)
  {
  }

  lemma DisjointActionGroup7And10()
    ensures Disjoint(ActionGroup7, ActionGroup10)
  {
  }

  lemma DisjointActionGroup8And9()
    ensures Disjoint(ActionGroup8, ActionGroup9)
  {
  }

  lemma DisjointActionGroup8And10()
    ensures Disjoint(ActionGroup8, ActionGroup10)
  {
  }

  lemma DisjointActionGroup9And10()
    ensures Disjoint(ActionGroup9, ActionGroup10)
  {
  }

  /** No two names of the vocabulary share a value. */
  lemma AllActionNamesDistinct()
    ensures |AllActionNames| == 43
    ensures PairwiseDistinct(AllActionNames)
  {
    DistinctActionGroup0();
    DistinctActionGroup1();
    DistinctActionGroup2();
    DistinctActionGroup3();
    DistinctActionGroup4();
    DistinctActionGroup5();
    DistinctActionGroup6();
    DistinctActionGroup7();
    DistinctActionGroup8();
    DistinctActionGroup9();
    DistinctActionGroup10();
    DisjointActionGroup0And1();
    DisjointActionGroup0And2();
    DisjointActionGroup0And3();
    DisjointActionGroup0And4();
    DisjointActionGroup0And5();
    DisjointActionGroup0And6();
    DisjointActionGroup0And7();
    DisjointActionGroup0And8();
    DisjointActionGroup0And9();
    DisjointActionGroup0And10();
    DisjointActionGroup1And2();
    DisjointActionGroup1And3();
    DisjointActionGroup1And4();
    DisjointActionGroup1And5();
    DisjointActionGroup1And6();
    DisjointActionGroup1And7();
    DisjointActionGroup1And8();
    DisjointActionGroup1And9();
    DisjointActionGroup1And10();
    DisjointActionGroup2And3();
    DisjointActionGroup2And4();
    DisjointActionGroup2And5();
    DisjointActionGroup2And6();
    DisjointActionGroup2And7();
    DisjointActionGroup2And8();
    DisjointActionGroup2And9();
    DisjointActionGroup2And10();
    DisjointActionGroup3And4();
    DisjointActionGroup3And5();
    DisjointActionGroup3And6();
    DisjointActionGroup3And7();
    DisjointActionGroup3And8();
    DisjointActionGroup3And9();
    DisjointActionGroup3And10();
    DisjointActionGroup4And5();
    DisjointActionGroup4And6();
    DisjointActionGroup4And7();
    DisjointActionGroup4And8();
    DisjointActionGroup4And9();
    DisjointActionGroup4And10();
    DisjointActionGroup5And6();
    DisjointActionGroup5And7();
    DisjointActionGroup5And8();
    DisjointActionGroup5And9();
    DisjointActionGroup5And10();
    DisjointActionGroup6And7();
    DisjointActionGroup6And8();
    DisjointActionGroup6And9();
    DisjointActionGroup6And10();
    DisjointActionGroup7And8();
    DisjointActionGroup7And9();
    DisjointActionGroup7And10();
    DisjointActionGroup8And9();
    DisjointActionGroup8And10();
    DisjointActionGroup9And10();
    DistinctConcat(ActionGroup0, ActionGroup1);
    DisjointConcat(ActionGroup0, ActionGroup1, ActionGroup2);
    DistinctConcat(ActionGroup0 + ActionGroup1, ActionGroup2);
    DisjointConcat(ActionGroup0, ActionGroup1, ActionGroup3);
    DisjointConcat(ActionGroup0 + ActionGroup1, ActionGroup2, ActionGroup3);
    DistinctConcat(ActionGroup0 + ActionGroup1 + ActionGroup2, ActionGroup3);
    DisjointConcat(ActionGroup0, ActionGroup1, ActionGroup4);
    DisjointConcat(ActionGroup0 + ActionGroup1, ActionGroup2, ActionGroup4);
    DisjointConcat(ActionGroup0 + ActionGroup1 + ActionGroup2, ActionGroup3, ActionGroup4);
    DistinctConcat(ActionGroup0 + ActionGroup1 + ActionGroup2 + ActionGroup3, ActionGroup4);
    DisjointConcat(ActionGroup0, ActionGroup1, ActionGroup5);
    DisjointConcat(ActionGroup0 + ActionGroup1, ActionGroup2, ActionGroup5);
    DisjointConcat(ActionGroup0 + ActionGroup1 + ActionGroup2, ActionGroup3, ActionGroup5);
    DisjointConcat(ActionGroup0 + ActionGroup1 + ActionGroup2 + ActionGroup3, ActionGroup4, ActionGroup5);
    DistinctConcat(ActionGroup0 + ActionGroup1 + ActionGroup2 + ActionGroup3 + ActionGroup4, ActionGroup5);
    DisjointConcat(ActionGroup0, ActionGroup1, ActionGroup6);
    DisjointConcat(ActionGroup0 + ActionGroup1, ActionGroup2, ActionGroup6);
    DisjointConcat(ActionGroup0 + ActionGroup1 + ActionGroup2, ActionGroup3, ActionGroup6);
    DisjointConcat(ActionGroup0 + ActionGroup1 + ActionGroup2 + ActionGroup3, ActionGroup4, ActionGroup6);
    DisjointConcat(ActionGroup0 + ActionGroup1 + ActionGroup2 + ActionGroup3 + ActionGroup4, ActionGroup5, ActionGroup6);
    DistinctConcat(ActionGroup0 + ActionGroup1 + ActionGroup2 + ActionGroup3 + ActionGroup4 + ActionGroup5, ActionGroup6);
    DisjointConcat(ActionGroup0, ActionGroup1, ActionGroup7);
    DisjointConcat(ActionGroup0 + ActionGroup1, ActionGroup2, ActionGroup7);
    DisjointConcat(ActionGroup0 + ActionGroup1 + ActionGroup2, ActionGroup3, ActionGroup7);
    DisjointConcat(ActionGroup0 + ActionGroup1 + ActionGroup2 + ActionGroup3, ActionGroup4, ActionGroup7);
    DisjointConcat(ActionGroup0 + ActionGroup1 + ActionGroup2 + ActionGroup3 + ActionGroup4, ActionGroup5, ActionGroup7);
    DisjointConcat(ActionGroup0 + ActionGroup1 + ActionGroup2 + ActionGroup3 + ActionGroup4 + ActionGroup5, ActionGroup6, ActionGroup7);
    DistinctConcat(ActionGroup0 + ActionGroup1 + ActionGroup2 + ActionGroup3 + ActionGroup4 + ActionGroup5 + ActionGroup6, ActionGroup7);
    DisjointConcat(ActionGroup0, ActionGroup1, ActionGroup8);
    DisjointConcat(ActionGroup0 + ActionGroup1, ActionGroup2, ActionGroup8);
    DisjointConcat(ActionGroup0 + ActionGroup1 + ActionGroup2, ActionGroup3, ActionGroup8);
    DisjointConcat(ActionGroup0 + ActionGroup1 + ActionGroup2 + ActionGroup3, ActionGroup4, ActionGroup8);
    DisjointConcat(ActionGroup0 + ActionGroup1 + ActionGroup2 + ActionGroup3 + ActionGroup4, ActionGroup5, ActionGroup8);
    DisjointConcat(ActionGroup0 + ActionGroup1 + ActionGroup2 + ActionGroup3 + ActionGroup4 + ActionGroup5, ActionGroup6, ActionGroup8);
    DisjointConcat(ActionGroup0 + ActionGroup1 + ActionGroup2 + ActionGroup3 + ActionGroup4 + ActionGroup5 + ActionGroup6, ActionGroup7, ActionGroup8);
    DistinctConcat(ActionGroup0 + ActionGroup1 + ActionGroup2 + ActionGroup3 + ActionGroup4 + ActionGroup5 + ActionGroup6 + ActionGroup7, ActionGroup8);
    DisjointConcat(ActionGroup0, ActionGroup1, ActionGroup9);
    DisjointConcat(ActionGroup0 + ActionGroup1, ActionGroup2, ActionGroup9);
    DisjointConcat(ActionGroup0 + ActionGroup1 + ActionGroup2, ActionGroup3, ActionGroup9);
    DisjointConcat(ActionGroup0 + ActionGroup1 + ActionGroup2 + ActionGroup3, ActionGroup4, ActionGroup9);
    DisjointConcat(ActionGroup0 + ActionGroup1 + ActionGroup2 + ActionGroup3 + ActionGroup4, ActionGroup5, ActionGroup9);
    DisjointConcat(ActionGroup0 + ActionGroup1 + ActionGroup2 + ActionGroup3 + ActionGroup4 + ActionGroup5, ActionGroup6, ActionGroup9);
    DisjointConcat(ActionGroup0 + ActionGroup1 + ActionGroup2 + ActionGroup3 + ActionGroup4 + ActionGroup5 + ActionGroup6, ActionGroup7, ActionGroup9);
    DisjointConcat(ActionGroup0 + ActionGroup1 + ActionGroup2 + ActionGroup3 + ActionGroup4 + ActionGroup5 + ActionGroup6 + ActionGroup7, ActionGroup8, ActionGroup9);
    DistinctConcat(ActionGroup0 + ActionGroup1 + ActionGroup2 + ActionGroup3 + ActionGroup4 + ActionGroup5 + ActionGroup6 + ActionGroup7 + ActionGroup8, ActionGroup9);
    DisjointConcat(ActionGroup0, ActionGroup1, ActionGroup10);
    DisjointConcat(ActionGroup0 + ActionGroup1, ActionGroup2, ActionGroup10);
    DisjointConcat(ActionGroup0 + ActionGroup1 + ActionGroup2, ActionGroup3, ActionGroup10);
    DisjointConcat(ActionGroup0 + ActionGroup1 + ActionGroup2 + ActionGroup3, ActionGroup4, ActionGroup10);
    DisjointConcat(ActionGroup0 + ActionGroup1 + ActionGroup2 + ActionGroup3 + ActionGroup4, ActionGroup5, ActionGroup10);
    DisjointConcat(ActionGroup0 + ActionGroup1 + ActionGroup2 + ActionGroup3 + ActionGroup4 + ActionGroup5, ActionGroup6, ActionGroup10);
    DisjointConcat(ActionGroup0 + ActionGroup1 + ActionGroup2 + ActionGroup3 + ActionGroup4 + ActionGroup5 + ActionGroup6, ActionGroup7, ActionGroup10);
    DisjointConcat(ActionGroup0 + ActionGroup1 + ActionGroup2 + ActionGroup3 + ActionGroup4 + ActionGroup5 + ActionGroup6 + ActionGroup7, ActionGroup8, ActionGroup10);
    DisjointConcat(ActionGroup0 + ActionGroup1 + ActionGroup2 + ActionGroup3 + ActionGroup4 + ActionGroup5 + ActionGroup6 + ActionGroup7 + ActionGroup8, ActionGroup9, ActionGroup10);
    DistinctConcat(ActionGroup0 + ActionGroup1 + ActionGroup2 + ActionGroup3 + ActionGroup4 + ActionGroup5 + ActionGroup6 + ActionGroup7 + ActionGroup8 + ActionGroup9, ActionGroup10);
  }

  // Character classes, proved a few names at a time.

  lemma SnakeCaseActionGroup0Part0Letters()
    ensures LowerOrUnderscore(ActionAccountDelete.value)
    ensures LowerOrUnderscore(ActionBack.value)
  {
  }

  lemma SnakeCaseActionGroup0Part0Underscores()
    ensures NoDoubleUnderscore(ActionAccountDelete.value)
    ensures NoDoubleUnderscore(ActionBack.value)
  {
  }

  lemma SnakeCaseActionGroup0Part0()
    ensures SnakeCase(ActionAccountDelete.value)
    ensures SnakeCase(ActionBack.value)
  {
    SnakeCaseActionGroup0Part0Letters();
    SnakeCaseActionGroup0Part0Underscores();
  }

  lemma SnakeCaseActionGroup0Part1Letters()
    ensures LowerOrUnderscore(ActionContinueToLoginOTP.value)
  {
  }

  lemma SnakeCaseActionGroup0Part1Underscores()
    ensures NoDoubleUnderscore(ActionContinueToLoginOTP.value)
  {
  }

  lemma SnakeCaseActionGroup0Part1()
    ensures SnakeCase(ActionContinueToLoginOTP.value)
  {
    SnakeCaseActionGroup0Part1Letters();
    SnakeCaseActionGroup0Part1Underscores();
  }

  lemma SnakeCaseActionGroup0Part2Letters()
    ensures LowerOrUnderscore(ActionContinueToLoginSecurityKey.value)
  {
  }

  lemma SnakeCaseActionGroup0Part2Underscores()
    ensures NoDoubleUnderscore(ActionContinueToLoginSecurityKey.value)
  {
  }

  lemma SnakeCaseActionGroup0Part2()
    ensures SnakeCase(ActionContinueToLoginSecurityKey.value)
  {
    SnakeCaseActionGroup0Part2Letters();
    SnakeCaseActionGroup0Part2Underscores();
  }

  lemma SnakeCaseActionGroup0Part3Letters()
    ensures LowerOrUnderscore(ActionContinueToOTPSecretCreation.value)
  {
  }

  lemma SnakeCaseActionGroup0Part3Underscores()
    ensures NoDoubleUnderscore(ActionContinueToOTPSecretCreation.value)
  {
  }

  lemma SnakeCaseActionGroup0Part3()
    ensures SnakeCase(ActionContinueToOTPSecretCreation.value)
  {
    SnakeCaseActionGroup0Part3Letters();
    SnakeCaseActionGroup0Part3Underscores();
  }

  lemma SnakeCaseActionGroup0()
    ensures forall a <- ActionGroup0 :: SnakeCase(a.value)
  {
    SnakeCaseActionGroup0Part0();
    SnakeCaseActionGroup0Part1();
    SnakeCaseActionGroup0Part2();
    SnakeCaseActionGroup0Part3();
  }

  lemma SnakeCaseActionGroup1Part0Letters()
    ensures LowerOrUnderscore(ActionContinueToPasscodeConfirmation.value)
  {
  }

  lemma SnakeCaseActionGroup1Part0Underscores()
    ensures NoDoubleUnderscore(ActionContinueToPasscodeConfirmation.value)
  {
  }

  lemma SnakeCaseActionGroup1Part0()
    ensures SnakeCase(ActionContinueToPasscodeConfirmation.value)
  {
    SnakeCaseActionGroup1Part0Letters();
    SnakeCaseActionGroup1Part0Underscores();
  }

  lemma SnakeCaseActionGroup1Part1Letters()
    ensures LowerOrUnderscore(ActionContinueToPasscodeConfirmationRecovery.value)
  {
  }

  lemma SnakeCaseActionGroup1Part1Underscores()
    ensures NoDoubleUnderscore(ActionContinueToPasscodeConfirmationRecovery.value)
  {
  }

  lemma SnakeCaseActionGroup1Part1()
    ensures SnakeCase(ActionContinueToPasscodeConfirmationRecovery.value)
  {
    SnakeCaseActionGroup1Part1Letters();
    SnakeCaseActionGroup1Part1Underscores();
  }

  lemma SnakeCaseActionGroup1()
    ensures forall a <- ActionGroup1 :: SnakeCase(a.value)
  {
    SnakeCaseActionGroup1Part0();
    SnakeCaseActionGroup1Part1();
  }

  lemma SnakeCaseActionGroup2Part0Letters()
    ensures LowerOrUnderscore(ActionContinueToPasskeyRegistration.value)
  {
  }

  lemma SnakeCaseActionGroup2Part0Underscores()
    ensures NoDoubleUnderscore(ActionContinueToPasskeyRegistration.value)
  {
  }

  lemma SnakeCaseActionGroup2Part0()
    ensures SnakeCase(ActionContinueToPasskeyRegistration.value)
  {
    SnakeCaseActionGroup2Part0Letters();
    SnakeCaseActionGroup2Part0Underscores();
  }

  lemma SnakeCaseActionGroup2Part1Letters()
    ensures LowerOrUnderscore(ActionContinueToPasswordLogin.value)
  {
  }

  lemma SnakeCaseActionGroup2Part1Underscores()
    ensures NoDoubleUnderscore(ActionContinueToPasswordLogin.value)
  {
  }

  lemma SnakeCaseActionGroup2Part1()
    ensures SnakeCase(ActionContinueToPasswordLogin.value)
  {
    SnakeCaseActionGroup2Part1Letters();
    SnakeCaseActionGroup2Part1Underscores();
  }

  lemma SnakeCaseActionGroup2Part2Letters()
    ensures LowerOrUnderscore(ActionContinueToPasswordRegistration.value)
  {
  }

  lemma SnakeCaseActionGroup2Part2Underscores()
    ensures NoDoubleUnderscore(ActionContinueToPasswordRegistration.value)
  {
  }

  lemma SnakeCaseActionGroup2Part2()
    ensures SnakeCase(ActionContinueToPasswordRegistration.value)
  {
    SnakeCaseActionGroup2Part2Letters();
    SnakeCaseActionGroup2Part2Underscores();
  }

  lemma SnakeCaseActionGroup2()
    ensures forall a <- ActionGroup2 :: SnakeCase(a.value)
  {
    SnakeCaseActionGroup2Part0();
    SnakeCaseActionGroup2Part1();
    SnakeCaseActionGroup2Part2();
  }

  lemma SnakeCaseActionGroup3Part0Letters()
    ensures LowerOrUnderscore(ActionContinueToSecurityKeyCreation.value)
  {
  }

  lemma SnakeCaseActionGroup3Part0Underscores()
    ensures NoDoubleUnderscore(ActionContinueToSecurityKeyCreation.value)
  {
  }

  lemma SnakeCaseActionGroup3Part0()
    ensures SnakeCase(ActionContinueToSecurityKeyCreation.value)
  {
    SnakeCaseActionGroup3Part0Letters();
    SnakeCaseActionGroup3Part0Underscores();
  }

  lemma SnakeCaseActionGroup3Part1Letters()
    ensures LowerOrUnderscore(ActionContinueWithLoginIdentifier.value)
  {
  }

  lemma SnakeCaseActionGroup3Part1Underscores()
    ensures NoDoubleUnderscore(ActionContinueWithLoginIdentifier.value)
  {
  }

  lemma SnakeCaseActionGroup3Part1()
    ensures SnakeCase(ActionContinueWithLoginIdentifier.value)
  {
    SnakeCaseActionGroup3Part1Letters();
    SnakeCaseActionGroup3Part1Underscores();
  }

  lemma SnakeCaseActionGroup3Part2Letters()
    ensures LowerOrUnderscore(ActionEmailAddressSet.value)
    ensures LowerOrUnderscore(ActionEmailCreate.value)
  {
  }

  lemma SnakeCaseActionGroup3Part2Underscores()
    ensures NoDoubleUnderscore(ActionEmailAddressSet.value)
    ensures NoDoubleUnderscore(ActionEmailCreate.value)
  {
  }

  lemma SnakeCaseActionGroup3Part2()
    ensures SnakeCase(ActionEmailAddressSet.value)
    ensures SnakeCase(ActionEmailCreate.value)
  {
    SnakeCaseActionGroup3Part2Letters();
    SnakeCaseActionGroup3Part2Underscores();
  }

  lemma SnakeCaseActionGroup3()
    ensures forall a <- ActionGroup3 :: SnakeCase(a.value)
  {
    SnakeCaseActionGroup3Part0();
    SnakeCaseActionGroup3Part1();
    SnakeCaseActionGroup3Part2();
  }

  lemma SnakeCaseActionGroup4Part0Letters()
    ensures LowerOrUnderscore(ActionEmailDelete.value)
    ensures LowerOrUnderscore(ActionEmailSetPrimary.value)
    ensures LowerOrUnderscore(ActionEmailVerify.value)
  {
  }

  lemma SnakeCaseActionGroup4Part0Underscores()
    ensures NoDoubleUnderscore(ActionEmailDelete.value)
    ensures NoDoubleUnderscore(ActionEmailSetPrimary.value)
    ensures NoDoubleUnderscore(ActionEmailVerify.value)
  {
  }

  lemma SnakeCaseActionGroup4Part0()
    ensures SnakeCase(ActionEmailDelete.value)
    ensures SnakeCase(ActionEmailSetPrimary.value)
    ensures SnakeCase(ActionEmailVerify.value)
  {
    SnakeCaseActionGroup4Part0Letters();
    SnakeCaseActionGroup4Part0Underscores();
  }

  lemma SnakeCaseActionGroup4Part1Letters()
    ensures LowerOrUnderscore(ActionExchangeToken.value)
    ensures LowerOrUnderscore(ActionOTPCodeValidate.value)
  {
  }

  lemma SnakeCaseActionGroup4Part1Underscores()
    ensures NoDoubleUnderscore(ActionExchangeToken.value)
    ensures NoDoubleUnderscore(ActionOTPCodeValidate.value)
  {
  }

  lemma SnakeCaseActionGroup4Part1()
    ensures SnakeCase(ActionExchangeToken.value)
    ensures SnakeCase(ActionOTPCodeValidate.value)
  {
    SnakeCaseActionGroup4Part1Letters();
    SnakeCaseActionGroup4Part1Underscores();
  }

  lemma SnakeCaseActionGroup4()
    ensures forall a <- ActionGroup4 :: SnakeCase(a.value)
  {
    SnakeCaseActionGroup4Part0();
    SnakeCaseActionGroup4Part1();
  }

  lemma SnakeCaseActionGroup5Part0Letters()
    ensures LowerOrUnderscore(ActionOTPCodeVerify.value)
    ensures LowerOrUnderscore(ActionPasswordCreate.value)
  {
  }

  lemma SnakeCaseActionGroup5Part0Underscores()
    ensures NoDoubleUnderscore(ActionOTPCodeVerify.value)
    ensures NoDoubleUnderscore(ActionPasswordCreate.value)
  {
  }

  lemma SnakeCaseActionGroup5Part0()
    ensures SnakeCase(ActionOTPCodeVerify.value)
    ensures SnakeCase(ActionPasswordCreate.value)
  {
    SnakeCaseActionGroup5Part0Letters();
    SnakeCaseActionGroup5Part0Underscores();
  }

  lemma SnakeCaseActionGroup5Part1Letters()
    ensures LowerOrUnderscore(ActionPasswordDelete.value)
    ensures LowerOrUnderscore(ActionPasswordLogin.value)
  {
  }

  lemma SnakeCaseActionGroup5Part1Underscores()
    ensures NoDoubleUnderscore(ActionPasswordDelete.value)
    ensures NoDoubleUnderscore(ActionPasswordLogin.value)
  {
  }

  lemma SnakeCaseActionGroup5Part1()
    ensures SnakeCase(ActionPasswordDelete.value)
    ensures SnakeCase(ActionPasswordLogin.value)
  {
    SnakeCaseActionGroup5Part1Letters();
    SnakeCaseActionGroup5Part1Underscores();
  }

  lemma SnakeCaseActionGroup5Part2Letters()
    ensures LowerOrUnderscore(ActionPasswordRecovery.value)
  {
  }

  lemma SnakeCaseActionGroup5Part2Underscores()
    ensures NoDoubleUnderscore(ActionPasswordRecovery.value)
  {
  }

  lemma SnakeCaseActionGroup5Part2()
    ensures SnakeCase(ActionPasswordRecovery.value)
  {
    SnakeCaseActionGroup5Part2Letters();
    SnakeCaseActionGroup5Part2Underscores();
  }

  lemma SnakeCaseActionGroup5()
    ensures forall a <- ActionGroup5 :: SnakeCase(a.value)
  {
    SnakeCaseActionGroup5Part0();
    SnakeCaseActionGroup5Part1();
    SnakeCaseActionGroup5Part2();
  }

  lemma SnakeCaseActionGroup6Part0Letters()
    ensures LowerOrUnderscore(ActionPasswordUpdate.value)
  {
  }

  lemma SnakeCaseActionGroup6Part0Underscores()
    ensures NoDoubleUnderscore(ActionPasswordUpdate.value)
  {
  }

  lemma SnakeCaseActionGroup6Part0()
    ensures SnakeCase(ActionPasswordUpdate.value)
  {
    SnakeCaseActionGroup6Part0Letters();
    SnakeCaseActionGroup6Part0Underscores();
  }

  lemma SnakeCaseActionGroup6Part1Letters()
    ensures LowerOrUnderscore(ActionRegisterClientCapabilities.value)
  {
  }

  lemma SnakeCaseActionGroup6Part1Underscores()
    ensures NoDoubleUnderscore(ActionRegisterClientCapabilities.value)
  {
  }

  lemma SnakeCaseActionGroup6Part1()
    ensures SnakeCase(ActionRegisterClientCapabilities.value)
  {
    SnakeCaseActionGroup6Part1Letters();
    SnakeCaseActionGroup6Part1Underscores();
  }

  lemma SnakeCaseActionGroup6Part2Letters()
    ensures LowerOrUnderscore(ActionRegisterLoginIdentifier.value)
  {
  }

  lemma SnakeCaseActionGroup6Part2Underscores()
    ensures NoDoubleUnderscore(ActionRegisterLoginIdentifier.value)
  {
  }

  lemma SnakeCaseActionGroup6Part2()
    ensures SnakeCase(ActionRegisterLoginIdentifier.value)
  {
    SnakeCaseActionGroup6Part2Letters();
    SnakeCaseActionGroup6Part2Underscores();
  }

  lemma SnakeCaseActionGroup6Part3Letters()
    ensures LowerOrUnderscore(ActionRegisterPassword.value)
    ensures LowerOrUnderscore(ActionResendPasscode.value)
  {
  }

  lemma SnakeCaseActionGroup6Part3Underscores()
    ensures NoDoubleUnderscore(ActionRegisterPassword.value)
    ensures NoDoubleUnderscore(ActionResendPasscode.value)
  {
  }

  lemma SnakeCaseActionGroup6Part3()
    ensures SnakeCase(ActionRegisterPassword.value)
    ensures SnakeCase(ActionResendPasscode.value)
  {
    SnakeCaseActionGroup6Part3Letters();
    SnakeCaseActionGroup6Part3Underscores();
  }

  lemma SnakeCaseActionGroup6()
    ensures forall a <- ActionGroup6 :: SnakeCase(a.value)
  {
    SnakeCaseActionGroup6Part0();
    SnakeCaseActionGroup6Part1();
    SnakeCaseActionGroup6Part2();
    SnakeCaseActionGroup6Part3();
  }

  lemma SnakeCaseActionGroup7Part0Letters()
    ensures LowerOrUnderscore(ActionSkip.value)
    ensures LowerOrUnderscore(ActionThirdPartyOAuth.value)
    ensures LowerOrUnderscore(ActionUsernameCreate.value)
  {
  }

  lemma SnakeCaseActionGroup7Part0Underscores()
    ensures NoDoubleUnderscore(ActionSkip.value)
    ensures NoDoubleUnderscore(ActionThirdPartyOAuth.value)
    ensures NoDoubleUnderscore(ActionUsernameCreate.value)
  {
  }

  lemma SnakeCaseActionGroup7Part0()
    ensures SnakeCase(ActionSkip.value)
    ensures SnakeCase(ActionThirdPartyOAuth.value)
    ensures SnakeCase(ActionUsernameCreate.value)
  {
    SnakeCaseActionGroup7Part0Letters();
    SnakeCaseActionGroup7Part0Underscores();
  }

  lemma SnakeCaseActionGroup7Part1Letters()
    ensures LowerOrUnderscore(ActionUsernameDelete.value)
    ensures LowerOrUnderscore(ActionUsernameUpdate.value)
  {
  }

  lemma SnakeCaseActionGroup7Part1Underscores()
    ensures NoDoubleUnderscore(ActionUsernameDelete.value)
    ensures NoDoubleUnderscore(ActionUsernameUpdate.value)
  {
  }

  lemma SnakeCaseActionGroup7Part1()
    ensures SnakeCase(ActionUsernameDelete.value)
    ensures SnakeCase(ActionUsernameUpdate.value)
  {
    SnakeCaseActionGroup7Part1Letters();
    SnakeCaseActionGroup7Part1Underscores();
  }

  lemma SnakeCaseActionGroup7()
    ensures forall a <- ActionGroup7 :: SnakeCase(a.value)
  {
    SnakeCaseActionGroup7Part0();
    SnakeCaseActionGroup7Part1();
  }

  lemma SnakeCaseActionGroup8Part0Letters()
    ensures LowerOrUnderscore(ActionVerifyPasscode.value)
  {
  }

  lemma SnakeCaseActionGroup8Part0Underscores()
    ensures NoDoubleUnderscore(ActionVerifyPasscode.value)
  {
  }

  lemma SnakeCaseActionGroup8Part0()
    ensures SnakeCase(ActionVerifyPasscode.value)
  {
    SnakeCaseActionGroup8Part0Letters();
    SnakeCaseActionGroup8Part0Underscores();
  }

  lemma SnakeCaseActionGroup8Part1Letters()
    ensures LowerOrUnderscore(ActionWebauthnCredentialCreate.value)
  {
  }

  lemma SnakeCaseActionGroup8Part1Underscores()
    ensures NoDoubleUnderscore(ActionWebauthnCredentialCreate.value)
  {
  }

  lemma SnakeCaseActionGroup8Part1()
    ensures SnakeCase(ActionWebauthnCredentialCreate.value)
  {
    SnakeCaseActionGroup8Part1Letters();
    SnakeCaseActionGroup8Part1Underscores();
  }

  lemma SnakeCaseActionGroup8Part2Letters()
    ensures LowerOrUnderscore(ActionWebauthnCredentialDelete.value)
  {
  }

  lemma SnakeCaseActionGroup8Part2Underscores()
    ensures NoDoubleUnderscore(ActionWebauthnCredentialDelete.value)
  {
  }

  lemma SnakeCaseActionGroup8Part2()
    ensures SnakeCase(ActionWebauthnCredentialDelete.value)
  {
    SnakeCaseActionGroup8Part2Letters();
    SnakeCaseActionGroup8Part2Underscores();
  }

  lemma SnakeCaseActionGroup8Part3Letters()
    ensures LowerOrUnderscore(ActionWebauthnCredentialRename.value)
  {
  }

  lemma SnakeCaseActionGroup8Part3Underscores()
    ensures NoDoubleUnderscore(ActionWebauthnCredentialRename.value)
  {
  }

  lemma SnakeCaseActionGroup8Part3()
    ensures SnakeCase(ActionWebauthnCredentialRename.value)
  {
    SnakeCaseActionGroup8Part3Letters();
    SnakeCaseActionGroup8Part3Underscores();
  }

  lemma SnakeCaseActionGroup8()
    ensures forall a <- ActionGroup8 :: SnakeCase(a.value)
  {
    SnakeCaseActionGroup8Part0();
    SnakeCaseActionGroup8Part1();
    SnakeCaseActionGroup8Part2();
    SnakeCaseActionGroup8Part3();
  }

  lemma SnakeCaseActionGroup9Part0Letters()
    ensures LowerOrUnderscore(ActionWebauthnGenerateCreationOptions.value)
  {
  }

  lemma SnakeCaseActionGroup9Part0Underscores()
    ensures NoDoubleUnderscore(ActionWebauthnGenerateCreationOptions.value)
  {
  }

  lemma SnakeCaseActionGroup9Part0()
    ensures SnakeCase(ActionWebauthnGenerateCreationOptions.value)
  {
    SnakeCaseActionGroup9Part0Letters();
    SnakeCaseActionGroup9Part0Underscores();
  }

  lemma SnakeCaseActionGroup9Part1Letters()
    ensures LowerOrUnderscore(ActionWebauthnGenerateRequestOptions.value)
  {
  }

  lemma SnakeCaseActionGroup9Part1Underscores()
    ensures NoDoubleUnderscore(ActionWebauthnGenerateRequestOptions.value)
  {
  }

  lemma SnakeCaseActionGroup9Part1()
    ensures SnakeCase(ActionWebauthnGenerateRequestOptions.value)
  {
    SnakeCaseActionGroup9Part1Letters();
    SnakeCaseActionGroup9Part1Underscores();
  }

  lemma SnakeCaseActionGroup9()
    ensures forall a <- ActionGroup9 :: SnakeCase(a.value)
  {
    SnakeCaseActionGroup9Part0();
    SnakeCaseActionGroup9Part1();
  }

  lemma SnakeCaseActionGroup10Part0Letters()
    ensures LowerOrUnderscore(ActionWebauthnVerifyAssertionResponse.value)
  {
  }

  lemma SnakeCaseActionGroup10Part0Underscores()
    ensures NoDoubleUnderscore(ActionWebauthnVerifyAssertionResponse.value)
  {
  }

  lemma SnakeCaseActionGroup10Part0()
    ensures SnakeCase(ActionWebauthnVerifyAssertionResponse.value)
  {
    SnakeCaseActionGroup10Part0Letters();
    SnakeCaseActionGroup10Part0Underscores();
  }

  lemma SnakeCaseActionGroup10Part1Letters()
    ensures LowerOrUnderscore(ActionWebauthnVerifyAttestationResponse.value)
  {
  }

  lemma SnakeCaseActionGroup10Part1Underscores()
    ensures NoDoubleUnderscore(ActionWebauthnVerifyAttestationResponse.value)
  {
  }

  lemma SnakeCaseActionGroup10Part1()
    ensures SnakeCase(ActionWebauthnVerifyAttestationResponse.value)
  {
    SnakeCaseActionGroup10Part1Letters();
    SnakeCaseActionGroup10Part1Underscores();
  }

  lemma SnakeCaseActionGroup10Part2Letters()
    ensures LowerOrUnderscore(ActionSessionDelete.value)
  {
  }

  lemma SnakeCaseActionGroup10Part2Underscores()
    ensures NoDoubleUnderscore(ActionSessionDelete.value)
  {
  }

  lemma SnakeCaseActionGroup10Part2()
    ensures SnakeCase(ActionSessionDelete.value)
  {
    SnakeCaseActionGroup10Part2Letters();
    SnakeCaseActionGroup10Part2Underscores();
  }

  lemma SnakeCaseActionGroup10()
    ensures forall a <- ActionGroup10 :: SnakeCase(a.value)
  {
    SnakeCaseActionGroup10Part0();
    SnakeCaseActionGroup10Part1();
    SnakeCaseActionGroup10Part2();
  }

  /** Every value is non-empty lower-case snake case. */
  lemma AllActionNamesSnakeCase()
    ensures forall a <- AllActionNames :: SnakeCase(a.value)
  {
    SnakeCaseActionGroup0();
    SnakeCaseActionGroup1();
    SnakeCaseActionGroup2();
    SnakeCaseActionGroup3();
    SnakeCaseActionGroup4();
    SnakeCaseActionGroup5();
    SnakeCaseActionGroup6();
    SnakeCaseActionGroup7();
    SnakeCaseActionGroup8();
    SnakeCaseActionGroup9();
    SnakeCaseActionGroup10();
  }

  /** Spellings the flows match on, kept exactly. */
  lemma KnownSpellings()
    ensures ActionBack.value == "back" && ActionSkip.value == "skip"
    ensures ActionContinueWithLoginIdentifier.value == "continue_with_login_identifier"
    ensures ActionThirdPartyOAuth.value == "thirdparty_oauth"
  {
  }
}

=== FILE: builder.dfy ===
/** The flow builder: accumulates, per state, the ordered transitions (one per
    method offered in that state), the initial, error and end states and a
    time-to-live, and hands them out unchanged as a flow definition. */
module Builder {
  import opened Flowpilot

  /** A state-graph edge as the builder records it: the method (action) it offers. */
  datatype Transition = Transition(action: Method)

  /** The TTL is kept as an opaque number of time units. */
  datatype FlowBuilder = FlowBuilder(
    path: string,
    ttl: nat,
    initialState: StateName,
    errorState: StateName,
    endState: StateName,
    flow: map<StateName, seq<Transition>>)

  /** A built flow definition. */
  datatype Flow = Flow(
    path: string,
    flow: map<StateName, seq<Transition>>,
    initialState: StateName,
    errorState: StateName,
    endState: StateName,
    ttl: nat)

  /** The state name a builder holds before `FixedStates` is called: Go's zero string. */
  const Unset: StateName := StateName("")

  function NewFlow(path: string): (fb: FlowBuilder)
    ensures fb.path == path && fb.flow == map[] && fb.ttl == 0
    ensures fb.initialState == Unset && fb.errorState == Unset && fb.endState == Unset
  {
    FlowBuilder(path, 0, Unset, Unset, Unset, map[])
  }

  function TTL(fb: FlowBuilder, ttl: nat): (r: FlowBuilder)
    ensures r.ttl == ttl && r.(ttl := fb.ttl) == fb
  {
    fb.(ttl := ttl)
  }

  /** One transition per method, appended in the order the methods are given. */
  function Transitions(ms: seq<Method>): (ts: seq<Transition>)
    ensures |ts| == |ms|
    ensures forall k :: 0 <= k < |ms| ==> ts[k] == Transition(ms[k])
  {
    if |ms| == 0 then [] else Transitions(ms[..|ms| - 1]) + [Transition(ms[|ms| - 1])]
  }

  /** The methods offered by a list of transitions, in order. */
  function MethodsOf(ts: seq<Transition>): (ms: seq<Method>)
    ensures |ms| == |ts|
    ensures forall k :: 0 <= k < |ts| ==> ms[k] == ts[k].action
  {
    if |ts| == 0 then [] else [ts[0].action] + MethodsOf(ts[1..])
  }

  /** Registers state `s` with the transitions for `ms`, replacing whatever
      was registered for `s` before; every other state keeps its entry. A state
      given no methods is still registered, with no transitions. */
  function State(fb: FlowBuilder, s: StateName, ms: seq<Method>): (r: FlowBuilder)
    ensures s in r.flow && MethodsOf(r.flow[s]) == ms
    ensures r.flow.Keys == fb.flow.Keys + {s}
    ensures forall t :: t in fb.flow && t != s ==> r.flow[t] == fb.flow[t]
    ensures r.(flow := fb.flow) == fb
  {
    fb.(flow := fb.flow[s := Transitions(ms)])
  }

  function FixedStates(fb: FlowBuilder, initialState: StateName, errorState: StateName, endState: StateName): (r: FlowBuilder)
    ensures r.initialState == initialState && r.errorState == errorState && r.endState == endState
    ensures r.(initialState := fb.initialState, errorState := fb.errorState, endState := fb.endState) == fb
  {
    fb.(initialState := initialState, errorState := errorState, endState := endState)
  }

  /** Hands out what was accumulated, with no check of any kind: an undeclared
      initial state, dangling targets and duplicate actions all pass through. */
  function Build(fb: FlowBuilder): (f: Flow)
    ensures f.path == fb.path && f.flow == fb.flow && f.ttl == fb.ttl
    ensures f.initialState == fb.initialState && f.errorState == fb.errorState && f.endState == fb.endState
  {
    Flow(fb.path, fb.flow, fb.initialState, fb.errorState, fb.endState, fb.ttl)
  }

  datatype TransitionBuilder = TransitionBuilder(action: Method)

  function BuildTransition(tb: TransitionBuilder): (t: Transition)
    ensures t.action == tb.action
  {
    Transition(tb.action)
  }

  /** The transitions of a state give back exactly the methods they were built
      from, and building transitions from their methods restores them. */
  lemma TransitionsRoundTrip(ms: seq<Method>, ts: seq<Transition>)
    ensures MethodsOf(Transitions(ms)) == ms
    ensures Transitions(MethodsOf(ts)) == ts
  {
  }

  /** Registering a state twice keeps only the second list. */
  lemma StateLastWriteWins(fb: FlowBuilder, s: StateName, ms1: seq<Method>, ms2: seq<Method>)
    ensures State(State(fb, s, ms1), s, ms2) == State(fb, s, ms2)
  {
  }

  /** Registrations of different states do not interfere. */
  lemma StatesCommute(fb: FlowBuilder, s: StateName, ms: seq<Method>, t: StateName, ns: seq<Method>)
    requires s != t
    ensures State(State(fb, s, ms), t, ns) == State(State(fb, t, ns), s, ms)
  {
  }

  /** A later `FixedStates` call overwrites an earlier one entirely. */
  lemma FixedStatesLastWriteWins(fb: FlowBuilder, i1: StateName, e1: StateName, f1: StateName,
                                 i2: StateName, e2: StateName, f2: StateName)
    ensures FixedStates(FixedStates(fb, i1, e1, f1), i2, e2, f2) == FixedStates(fb, i2, e2, f2)
  {
  }

  /** The flow's state map lists exactly the registered states, each with the
      methods of its latest registration. */
  lemma BuildKeepsRegistrations(fb: FlowBuilder, s: StateName, ms: seq<Method>)
    ensures Build(State(fb, s, ms)).flow.Keys == fb.flow.Keys + {s}
    ensures MethodsOf(Build(State(fb, s, ms)).flow[s]) == ms
    ensures forall t :: t in fb.flow && t != s ==> Build(State(fb, s, ms)).flow[t] == fb.flow[t]
  {
  }

  /** Build accepts a definition that a validating builder would refuse: its
      initial, error and end states are never registered and its one state
      offers the same action twice. */
  lemma BuildDoesNotValidate(m: Method)
    ensures
      var f := Build(FixedStates(State(NewFlow("/login"), StateName("login_init"), [m, m]),
                                 StateName("start"), StateName("error"), StateName("success")));
      && f.initialState !in f.flow && f.errorState !in f.flow && f.endState !in f.flow
      && |f.flow[StateName("login_init")]| == 2
      && f.flow[StateName("login_init")][0].action.name == f.flow[StateName("login_init")][1].action.name
  {
  }
}

=== FILE: email_pattern.dfy ===
/** The e-mail check of the input validator, which in the source is the regular
    expression  ^[a-zA-Z0-9._%+-]+@[a-zA-Z0-9.-]+\.[a-zA-Z]{2,}$  matched
    against the whole value. `Matches` is the declarative reading of that
    expression; `MatchEmail` decides it by scanning, and `MatchEmailCorrect`
    proves the two agree. */
module EmailPattern {
  import opened Wrappers

  predicate IsLetter(c: char) {
    'a' <= c <= 'z' || 'A' <= c <= 'Z'
  }

  predicate IsDigit(c: char) {
    '0' <= c <= '9'
  }

  /** The class [a-zA-Z0-9._%+-] of the part before '@'. */
  predicate IsLocalChar(c: char) {
    IsLetter(c) || IsDigit(c) || c == '.' || c == '_' || c == '%' || c == '+' || c == '-'
  }

  /** The class [a-zA-Z0-9.-] of the part between '@' and the final dot. */
  predicate IsDomainChar(c: char) {
    IsLetter(c) || IsDigit(c) || c == '.' || c == '-'
  }

  /** `s` splits as local '@' domain '.' tld, with the '@' at index `at` and
      the separating dot at index `dot`: a non-empty local part, a non-empty
      domain part and a top-level part of at least two letters. */
  ghost predicate SplitsAt(s: string, at: int, dot: int) {
    && 0 < at && at + 1 < dot && dot + 2 < |s|
    && s[at] == '@' && s[dot] == '.'
    && (forall k :: 0 <= k < at ==> IsLocalChar(s[k]))
    && (forall k :: at < k < dot ==> IsDomainChar(s[k]))
    && (forall k :: dot < k < |s| ==> IsLetter(s[k]))
  }

  /** The whole of `s` matches the e-mail expression. */
  ghost predicate Matches(s: string) {
    exists at, dot :: SplitsAt(s, at, dot)
  }

  /** First index at or after `i` whose character is outside the local class. */
  function LocalPartEnd(s: string, i: nat): (j: nat)
    requires i <= |s|
    ensures i <= j <= |s|
    ensures forall k :: i <= k < j ==> IsLocalChar(s[k])
    ensures j < |s| ==> !IsLocalChar(s[j])
    decreases |s| - i
  {
    if i == |s| || !IsLocalChar(s[i]) then i else LocalPartEnd(s, i + 1)
  }

  /** Index of the last '.' before index `i`, if there is one. */
  function LastDotBefore(s: string, i: nat): (r: Option<nat>)
    requires i <= |s|
    ensures r.Some? ==> r.value < i && s[r.value] == '.'
    ensures r.Some? ==> forall k :: r.value < k < i ==> s[k] != '.'
    ensures r.None? ==> forall k :: 0 <= k < i ==> s[k] != '.'
  {
    if i == 0 then None
    else if s[i - 1] == '.' then Some(i - 1)
    else LastDotBefore(s, i - 1)
  }

  /** Every character of s[lo..hi] is in the domain class. */
  function AllDomainChars(s: string, lo: nat, hi: nat): (b: bool)
    requires lo <= hi <= |s|
    ensures b <==> forall k :: lo <= k < hi ==> IsDomainChar(s[k])
    decreases hi - lo
  {
    lo == hi || (IsDomainChar(s[lo]) && AllDomainChars(s, lo + 1, hi))
  }

  /** Every character of s[lo..hi] is a letter. */
  function AllLetters(s: string, lo: nat, hi: nat): (b: bool)
    requires lo <= hi <= |s|
    ensures b <==> forall k :: lo <= k < hi ==> IsLetter(s[k])
    decreases hi - lo
  {
    lo == hi || (IsLetter(s[lo]) && AllLetters(s, lo + 1, hi))
  }

  /** Decides the e-mail expression: the local part runs up to the first
      character outside its class, which must be '@'; the top-level part
      starts after the last dot, since letters contain no dot. */
  function MatchEmail(s: string): bool {
    var at := LocalPartEnd(s, 0);
    if at == 0 || at == |s| || s[at] != '@' then false
    else
      match LastDotBefore(s, |s|)
      case None => false
      case Some(dot) =>
        at + 1 < dot && dot + 2 < |s|
        && AllDomainChars(s, at + 1, dot) && AllLetters(s, dot + 1, |s|)
  }

  /** The scanning decision agrees with the expression, in both directions. */
  lemma MatchEmailCorrect(s: string)
    ensures MatchEmail(s) <==> Matches(s)
  {
    var at := LocalPartEnd(s, 0);
    if MatchEmail(s) {
      var dot := LastDotBefore(s, |s|).value;
      assert SplitsAt(s, at, dot);
    }
    if Matches(s) {
      var a, d :| SplitsAt(s, a, d);
      assert at == a by {
        assert !IsLocalChar(s[a]);
      }
      assert LastDotBefore(s, |s|) == Some(d) by {
        assert !IsLetter('.');
      }
    }
  }
}

=== FILE: flowpilot.dfy ===
/** Types the flow engine keys on. `StateName` and `ActionName` are two distinct
    string-backed types, as in the Go package, so a state and an action that
    happen to share a spelling are never confused. */
module Flowpilot {

  /** The name of a state of a flow graph. */
  datatype StateName = StateName(value: string)

  /** The name of an action (method) offered in a state. */
  datatype ActionName = ActionName(value: string)

  /** A method (action) as far as the flow definition needs it: its name.
      Inputs, target states and the execution callback live in the engine,
      which is not part of this model. */
  datatype Method = Method(name: ActionName)

  /** Validation error codes an input field can carry. The five named codes are
      the ones the per-field validator sets; `OtherError` stands for any other
      code a caller may attach through `SetError`. */
  datatype ErrorType =
    | ValueMissingError
    | ValueInvalidError
    | ValueTooShortError
    | ValueTooLongError
    | EmailInvalidError
    | OtherError(code: string)
  {
    /** True for the codes the validator itself produces. */
    predicate IsValidationCode() {
      !OtherError?
    }
  }
}

=== FILE: go_strings.dfy ===
/** Go's `unicode.IsSpace` and `strings.TrimSpace`, over strings of code points. */
module GoStrings {

  /** Go's `unicode.IsSpace`: the ASCII spaces tab, line feed, vertical tab,
      form feed, carriage return and space, the Latin-1 spaces U+0085 and
      U+00A0, and the remaining code points with the Unicode White_Space
      property. */
  predicate IsSpace(c: char) {
    var n := c as int;
    || 0x09 <= n <= 0x0D || n == 0x20 || n == 0x85 || n == 0xA0
    || n == 0x1680 || 0x2000 <= n <= 0x200A || n == 0x2028 || n == 0x2029
    || n == 0x202F || n == 0x205F || n == 0x3000
  }

  predicate AllSpace(s: string) {
    forall k :: 0 <= k < |s| ==> IsSpace(s[k])
  }

  /** `s` without its leading white space: Go's
      `strings.TrimLeftFunc(s, unicode.IsSpace)`. */
  function TrimLeftSpace(s: string): (r: string)
    ensures |r| <= |s| && r == s[|s| - |r|..]
    ensures AllSpace(s[..|s| - |r|])
    ensures r == "" || !IsSpace(r[0])
  {
    if |s| > 0 && IsSpace(s[0]) then
      var r := TrimLeftSpace(s[1..]);
      assert s[1..][|s| - 1 - |r|..] == s[|s| - |r|..];
      assert forall k :: 1 <= k < |s| - |r| ==> s[k] == s[1..][..|s| - 1 - |r|][k - 1];
      r
    else
      s
  }

  /** `s` without its trailing white space: Go's
      `strings.TrimRightFunc(s, unicode.IsSpace)`. */
  function TrimRightSpace(s: string): (r: string)
    ensures |r| <= |s| && r == s[..|r|]
    ensures AllSpace(s[|r|..])
    ensures r == "" || !IsSpace(r[|r| - 1])
  {
    if |s| > 0 && IsSpace(s[|s| - 1]) then
      var r := TrimRightSpace(s[..|s| - 1]);
      assert forall k :: |r| <= k < |s| - 1 ==> s[k] == s[..|s| - 1][|r|..][k - |r|];
      r
    else
      s
  }

  /** Go's `strings.TrimSpace`: `s` without leading and trailing white space.
      The result is the part of `s` between index `i` and `i + |r|` for some
      `i`, with only white space cut from either side, and it is empty exactly
      when `s` is all white space. */
  function TrimSpace(s: string): (r: string)
    ensures exists i :: Trimmed(s, i, r)
    ensures r != "" ==> !IsSpace(r[0]) && !IsSpace(r[|r| - 1])
    ensures r == "" <==> AllSpace(s)
  {
    var left := TrimLeftSpace(s);
    var r := TrimRightSpace(left);
    var i := |s| - |left|;
    TrimmedParts(s, i, left, r);
    r
  }

  /** `r` is `s[i..i + |r|]` and everything around it is white space. */
  ghost predicate Trimmed(s: string, i: int, r: string) {
    && 0 <= i <= |s| - |r| && r == s[i..i + |r|]
    && AllSpace(s[..i]) && AllSpace(s[i + |r|..])
  }

  lemma TrimmedParts(s: string, i: int, left: string, r: string)
    requires 0 <= i <= |s| && left == s[i..] && AllSpace(s[..i])
    requires |r| <= |left| && r == left[..|r|] && AllSpace(left[|r|..])
    ensures Trimmed(s, i, r)
    ensures r == "" ==> AllSpace(s)
  {
    assert s[i + |r|..] == left[|r|..];
    if r == "" {
      forall k | 0 <= k < |s| ensures IsSpace(s[k]) {
        if k < i {
          assert s[k] == s[..i][k];
        } else {
          assert s[k] == left[k - i];
        }
      }
    }
  }

  /** Trimming twice trims nothing more. */
  lemma TrimSpaceIdempotent(s: string)
    ensures TrimSpace(TrimSpace(s)) == TrimSpace(s)
  {
    var r := TrimSpace(s);
    assert TrimLeftSpace(r) == r;
  }
}

=== FILE: inputs.dfy ===
/** Input fields of a flow method and the per-field validator (the Go type
    `DefaultInput`). Fields are immutable values here: every fluent setter
    returns an updated copy, and `Validate` returns the field with its error
    code set instead of mutating it. */
module Inputs {
  import opened Wrappers
  import opened Flowpilot
  import Utf8
  import EmailPattern

  datatype InputType = StringType | EmailType | NumberType | PasswordType | JSONType {

    /** The spelling of the type on the wire. */
    function Name(): string {
      match this
      case StringType => "string"
      case EmailType => "email"
      case NumberType => "number"
      case PasswordType => "password"
      case JSONType => "json"
    }
  }

  /** The five wire spellings are distinct, so a client can tell every input
      type from its name alone. */
  lemma InputTypeNamesDistinct()
    ensures forall t: InputType, u: InputType :: t.Name() == u.Name() ==> t == u
  {
  }

  /** An input field. `None` in an `Option` field is Go's nil pointer: a bound,
      flag or error that was never set. `value` is the value echoed back to the
      client. */
  datatype Input = Input(
    name: string,
    dataType: InputType,
    value: Option<string>,
    minLength: Option<int>,
    maxLength: Option<int>,
    required: Option<bool>,
    hidden: Option<bool>,
    errorType: Option<ErrorType>,
    preserveValue: bool,
    persistValue: bool,
    includeOnStates: seq<StateName>,
    compareWithStash: bool)

  /** What a state's response shows about an input field. */
  datatype PublicInput = PublicInput(
    name: string,
    inputType: InputType,
    value: Option<string>,
    minLength: Option<int>,
    maxLength: Option<int>,
    required: Option<bool>,
    hidden: Option<bool>,
    error: Option<ErrorType>)

  /** Nothing has been configured on `i` beyond its name, type and persist flag. */
  predicate Unconfigured(i: Input) {
    && i.value.None? && i.minLength.None? && i.maxLength.None?
    && i.required.None? && i.hidden.None? && i.errorType.None?
    && !i.preserveValue && i.includeOnStates == [] && !i.compareWithStash
  }

  function NewInput(name: string, t: InputType, persistValue: bool): (i: Input)
    ensures i.name == name && i.dataType == t && i.persistValue == persistValue
    ensures Unconfigured(i)
  {
    Input(name, t, None, None, None, None, None, None, false, persistValue, [], false)
  }

  function StringInput(name: string): (i: Input)
    ensures i.name == name && i.dataType == StringType && i.persistValue && Unconfigured(i)
  {
    NewInput(name, StringType, true)
  }

  function EmailInput(name: string): (i: Input)
    ensures i.name == name && i.dataType == EmailType && i.persistValue && Unconfigured(i)
  {
    NewInput(name, EmailType, true)
  }

  function NumberInput(name: string): (i: Input)
    ensures i.name == name && i.dataType == NumberType && i.persistValue && Unconfigured(i)
  {
    NewInput(name, NumberType, true)
  }

  function PasswordInput(name: string): (i: Input)
    ensures i.name == name && i.dataType == PasswordType && !i.persistValue && Unconfigured(i)
  {
    NewInput(name, PasswordType, false)
  }

  function JSONInput(name: string): (i: Input)
    ensures i.name == name && i.dataType == JSONType && !i.persistValue && Unconfigured(i)
  {
    NewInput(name, JSONType, false)
  }

  /** The factory for each input type. Exactly the string, e-mail and number
      factories persist the submitted value into the stash by default. */
  function Factory(t: InputType, name: string): (i: Input)
    ensures i.name == name && i.dataType == t && Unconfigured(i)
    ensures i.persistValue <==> t in {StringType, EmailType, NumberType}
  {
    match t
    case StringType => StringInput(name)
    case EmailType => EmailInput(name)
    case NumberType => NumberInput(name)
    case PasswordType => PasswordInput(name)
    case JSONType => JSONInput(name)
  }

  // Fluent setters. Each one changes exactly one field of the input.

  function MinLength(i: Input, n: int): (r: Input)
    ensures r.minLength == Some(n) && r.(minLength := i.minLength) == i
  {
    i.(minLength := Some(n))
  }

  function MaxLength(i: Input, n: int): (r: Input)
    ensures r.maxLength == Some(n) && r.(maxLength := i.maxLength) == i
  {
    i.(maxLength := Some(n))
  }

  function Required(i: Input, b: bool): (r: Input)
    ensures r.required == Some(b) && r.(required := i.required) == i
  {
    i.(required := Some(b))
  }

  function Hidden(i: Input, b: bool): (r: Input)
    ensures r.hidden == Some(b) && r.(hidden := i.hidden) == i
  {
    i.(hidden := Some(b))
  }

  function Preserve(i: Input, b: bool): (r: Input)
    ensures r.preserveValue == b && r.(preserveValue := i.preserveValue) == i
  {
    i.(preserveValue := b)
  }

  function Persist(i: Input, b: bool): (r: Input)
    ensures r.persistValue == b && r.(persistValue := i.persistValue) == i
  {
    i.(persistValue := b)
  }

  /** Replaces (does not extend) the list of states on which the field is validated. */
  function ConditionalIncludeOnState(i: Input, states: seq<StateName>): (r: Input)
    ensures r.includeOnStates == states && r.(includeOnStates := i.includeOnStates) == i
  {
    i.(includeOnStates := states)
  }

  function CompareWithStash(i: Input, b: bool): (r: Input)
    ensures r.compareWithStash == b && r.(compareWithStash := i.compareWithStash) == i
  {
    i.(compareWithStash := b)
  }

  function SetValue(i: Input, v: string): (r: Input)
    ensures r.value == Some(v) && r.(value := i.value) == i
  {
    i.(value := Some(v))
  }

  function SetError(i: Input, e: Option<ErrorType>): (r: Input)
    ensures r.errorType == e && r.(errorType := i.errorType) == i
  {
    i.(errorType := e)
  }

  /** Whether a field with including states `states` applies on state `s`:
      always when the list is empty, otherwise when `s` is listed. */
  function IncludedIn(states: seq<StateName>, s: StateName): (b: bool)
    ensures b <==> (|states| == 0 || s in states)
  {
    if |states| == 0 then true else Listed(states, s)
  }

  /** Linear scan for `s` in `states`. */
  function Listed(states: seq<StateName>, s: StateName): (b: bool)
    ensures b <==> s in states
  {
    if |states| == 0 then false
    else states[0] == s || Listed(states[1..], s)
  }

  function IsIncludedOnState(i: Input, s: StateName): (b: bool)
    ensures b <==> (|i.includeOnStates| == 0 || s in i.includeOnStates)
  {
    IncludedIn(i.includeOnStates, s)
  }

  /** The attributes of a field that the validator reads. */
  datatype FieldRules = FieldRules(
    dataType: InputType,
    minLength: Option<int>,
    maxLength: Option<int>,
    required: Option<bool>,
    includeOnStates: seq<StateName>,
    compareWithStash: bool)

  function RulesOf(i: Input): FieldRules {
    FieldRules(i.dataType, i.minLength, i.maxLength, i.required, i.includeOnStates, i.compareWithStash)
  }

  /** The decision of one validation pass: accept, reject with a code, or a nil
      dereference in the source (the value is used although it is absent). */
  datatype Verdict = Pass | Reject(code: ErrorType) | NilDereference

  /** The field is switched off on state `s`. */
  predicate SkippedOn(f: FieldRules, s: StateName) {
    |f.includeOnStates| > 0 && s !in f.includeOnStates
  }

  /** The required rule fails for the submitted value `v`. */
  predicate MissingValue(f: FieldRules, v: Option<string>) {
    f.required == Some(true) && (v.None? || Utf8.ByteLen(v.value) == 0)
  }

  /** The validator's decision for a field with rules `f` on state `s`, given
      the submitted value `v` and the stashed value `sv`. The rules run in a
      fixed order and the first that fails decides the code: state skip,
      required, compare with the stash, JSON stop, minimum length, maximum
      length, e-mail pattern. Lengths are counted in UTF-8 bytes. */
  function Check(f: FieldRules, s: StateName, v: Option<string>, sv: Option<string>): (d: Verdict)
    ensures SkippedOn(f, s) ==> d == Pass
    ensures !SkippedOn(f, s) && MissingValue(f, v) ==> d == Reject(ValueMissingError)
    ensures d.Reject? ==> d.code.IsValidationCode()
    ensures d.NilDereference? ==> v.None? && f.dataType != JSONType
  {
    if |f.includeOnStates| > 0 && !IncludedIn(f.includeOnStates, s) then
      Pass
    else if f.required.Some? && f.required.value && (v.None? || Utf8.ByteLen(v.value) <= 0) then
      Reject(ValueMissingError)
    else if f.compareWithStash && v.Some? && sv.Some? && v.value != sv.value then
      Reject(ValueInvalidError)
    else if f.dataType == JSONType then
      Pass
    else if f.minLength.Some? && v.None? then
      NilDereference
    else if f.minLength.Some? && Utf8.ByteLen(v.value) < f.minLength.value then
      Reject(ValueTooShortError)
    else if f.maxLength.Some? && v.None? then
      NilDereference
    else if f.maxLength.Some? && Utf8.ByteLen(v.value) > f.maxLength.value then
      Reject(ValueTooLongError)
    else if f.dataType == EmailType && v.None? then
      NilDereference
    else if f.dataType == EmailType && !EmailPattern.MatchEmail(v.value) then
      Reject(EmailInvalidError)
    else
      Pass
  }

  /** What one validation pass yields: the verdict together with the field as
      it is afterwards, or the panic of the source. */
  datatype Outcome = Returned(ok: bool, input: Input) | Panicked

  /** A failed verdict: only the error code of the field changes. */
  function Fail(i: Input, e: ErrorType): Outcome {
    Returned(false, i.(errorType := Some(e)))
  }

  /** Validates field `i` on state `s` against the submitted `data` and the
      `stash`, both read under the field's own name. A rejection records its
      code on the field; acceptance leaves the field, and any code recorded
      earlier, as it was. */
  function Validate(i: Input, s: StateName, data: map<string, string>, stash: map<string, string>): (r: Outcome)
    ensures SkippedOn(RulesOf(i), s) ==> r == Returned(true, i)
    ensures !SkippedOn(RulesOf(i), s) && MissingValue(RulesOf(i), Lookup(data, i.name)) ==>
      r == Fail(i, ValueMissingError)
    ensures r.Returned? && r.ok ==> r.input == i
    ensures r.Returned? && !r.ok ==>
      r.input.errorType.Some? && r.input.errorType.value.IsValidationCode()
      && r.input == i.(errorType := r.input.errorType)
  {
    match Check(RulesOf(i), s, Lookup(data, i.name), Lookup(stash, i.name))
    case Pass => Returned(true, i)
    case Reject(e) => Fail(i, e)
    case NilDereference => Panicked
  }

  /** The client-facing view of a field. Every public attribute is copied as it
      is, the value included, whatever the field's preserve flag says. */
  function ToPublicInput(i: Input): (p: PublicInput)
    ensures p.name == i.name && p.inputType == i.dataType && p.value == i.value
    ensures p.minLength == i.minLength && p.maxLength == i.maxLength
    ensures p.required == i.required && p.hidden == i.hidden && p.error == i.errorType
  {
    PublicInput(i.name, i.dataType, i.value, i.minLength, i.maxLength, i.required, i.hidden, i.errorType)
  }

  // A reference reading of the validator: each rule on its own, and a generic
  // "first violated rule wins" evaluation over the rule order.

  datatype Rule = RequiredRule | CompareRule | MinLengthRule | MaxLengthRule | EmailRule

  /** The order in which the validator applies its rules. */
  const RuleOrder: seq<Rule> := [RequiredRule, CompareRule, MinLengthRule, MaxLengthRule, EmailRule]

  function RuleError(rule: Rule): ErrorType {
    match rule
    case RequiredRule => ValueMissingError
    case CompareRule => ValueInvalidError
    case MinLengthRule => ValueTooShortError
    case MaxLengthRule => ValueTooLongError
    case EmailRule => EmailInvalidError
  }

  /** Rule `rule` rejects submitted value `v` given stashed value `sv`. The
      length and e-mail rules do not apply to JSON fields, and no rule but the
      required one can reject an absent value. */
  ghost predicate Violates(rule: Rule, f: FieldRules, v: Option<string>, sv: Option<string>) {
    match rule
    case RequiredRule => MissingValue(f, v)
    case CompareRule => f.compareWithStash && v.Some? && sv.Some? && v.value != sv.value
    case MinLengthRule =>
      f.dataType != JSONType && f.minLength.Some? && v.Some? && Utf8.ByteLen(v.value) < f.minLength.value
    case MaxLengthRule =>
      f.dataType != JSONType && f.maxLength.Some? && v.Some? && Utf8.ByteLen(v.value) > f.maxLength.value
    case EmailRule =>
      f.dataType == EmailType && v.Some? && !EmailPattern.Matches(v.value)
  }

  /** The first rule of `rules` that rejects the value, if any. */
  ghost function FirstViolation(rules: seq<Rule>, f: FieldRules, v: Option<string>, sv: Option<string>): (r: Option<Rule>)
    ensures r.Some? ==> r.value in rules && Violates(r.value, f, v, sv)
    ensures r.None? <==> forall k :: 0 <= k < |rules| ==> !Violates(rules[k], f, v, sv)
  {
    if |rules| == 0 then None
    else if Violates(rules[0], f, v, sv) then Some(rules[0])
    else FirstViolation(rules[1..], f, v, sv)
  }

  /** The source would dereference the absent value: a length bound or the
      e-mail pattern applies to a non-JSON field and nothing was submitted. */
  predicate DereferencesNil(f: FieldRules, v: Option<string>) {
    f.dataType != JSONType && v.None?
    && (f.minLength.Some? || f.maxLength.Some? || f.dataType == EmailType)
  }

  /** The first violated rule, spelled out for the five rules in order. */
  lemma FirstViolationOfRuleOrder(f: FieldRules, v: Option<string>, sv: Option<string>)
    ensures FirstViolation(RuleOrder, f, v, sv) ==
      if Violates(RequiredRule, f, v, sv) then Some(RequiredRule)
      else if Violates(CompareRule, f, v, sv) then Some(CompareRule)
      else if Violates(MinLengthRule, f, v, sv) then Some(MinLengthRule)
      else if Violates(MaxLengthRule, f, v, sv) then Some(MaxLengthRule)
      else if Violates(EmailRule, f, v, sv) then Some(EmailRule)
      else None
  {
    var tail := [EmailRule];
    assert FirstViolation(tail, f, v, sv) ==
      if Violates(EmailRule, f, v, sv) then Some(EmailRule) else None by {
      assert tail[1..] == [];
    }
    tail := [MaxLengthRule] + tail;
    assert FirstViolation(tail, f, v, sv) ==
      if Violates(MaxLengthRule, f, v, sv) then Some(MaxLengthRule) else FirstViolation(tail[1..], f, v, sv);
    tail := [MinLengthRule] + tail;
    assert FirstViolation(tail, f, v, sv) ==
      if Violates(MinLengthRule, f, v, sv) then Some(MinLengthRule) else FirstViolation(tail[1..], f, v, sv);
    tail := [CompareRule] + tail;
    assert FirstViolation(tail, f, v, sv) ==
      if Violates(CompareRule, f, v, sv) then Some(CompareRule) else FirstViolation(tail[1..], f, v, sv);
    tail := [RequiredRule] + tail;
    assert tail == RuleOrder;
  }

  /** The validator's decision is exactly the reference reading: a skipped
      field passes; otherwise the first violated rule of `RuleOrder` decides
      the code, and when no rule is violated the field passes unless the
      source would dereference the absent value. */
  lemma CheckFollowsRuleOrder(f: FieldRules, s: StateName, v: Option<string>, sv: Option<string>)
    ensures Check(f, s, v, sv) ==
      if SkippedOn(f, s) then Pass
      else match FirstViolation(RuleOrder, f, v, sv)
        case Some(rule) => Reject(RuleError(rule))
        case None => if DereferencesNil(f, v) then NilDereference else Pass
  {
    if v.Some? {
      EmailPattern.MatchEmailCorrect(v.value);
    }
    FirstViolationOfRuleOrder(f, v, sv);
  }

  // Consequences of the rule order, one per rule of the validator.

  /** Validation reads the submitted data and the stash only under the field's
      own name. */
  lemma ValidateReadsOnlyOwnName(i: Input, s: StateName, data1: map<string, string>, stash1: map<string, string>,
                                 data2: map<string, string>, stash2: map<string, string>)
    requires Lookup(data1, i.name) == Lookup(data2, i.name)
    requires Lookup(stash1, i.name) == Lookup(stash2, i.name)
    ensures Validate(i, s, data1, stash1) == Validate(i, s, data2, stash2)
  {
  }

  /** A submitted value that differs from the stashed one fails with
      ValueInvalidError once the field is not skipped and the required rule
      passes; when either value is absent, comparing with the stash changes
      nothing. */
  lemma CompareWithStashRule(f: FieldRules, s: StateName, v: Option<string>, sv: Option<string>)
    ensures (f.compareWithStash && !SkippedOn(f, s) && !MissingValue(f, v)
             && v.Some? && sv.Some? && v.value != sv.value) ==>
      Check(f, s, v, sv) == Reject(ValueInvalidError)
    ensures v.None? || sv.None? ==>
      Check(f.(compareWithStash := true), s, v, sv) == Check(f.(compareWithStash := false), s, v, sv)
  {
  }

  /** A JSON field that passes the required and compare rules is accepted:
      bounds are not checked and no value is dereferenced. */
  lemma JsonStopsAfterCompare(f: FieldRules, s: StateName, v: Option<string>, sv: Option<string>)
    requires f.dataType == JSONType
    requires !Violates(RequiredRule, f, v, sv) && !Violates(CompareRule, f, v, sv)
    ensures Check(f, s, v, sv) == Pass
  {
  }

  /** Once the earlier rules pass on a submitted value of a non-JSON field, a
      value shorter in bytes than the minimum fails with ValueTooShortError,
      even when it also exceeds the maximum, and a value that meets the minimum
      but is longer than the maximum fails with ValueTooLongError. */
  lemma LengthRules(f: FieldRules, s: StateName, v: string, sv: Option<string>)
    requires f.dataType != JSONType && !SkippedOn(f, s)
    requires !Violates(RequiredRule, f, Some(v), sv) && !Violates(CompareRule, f, Some(v), sv)
    ensures f.minLength.Some? && Utf8.ByteLen(v) < f.minLength.value ==>
      Check(f, s, Some(v), sv) == Reject(ValueTooShortError)
    ensures ((f.minLength.None? || Utf8.ByteLen(v) >= f.minLength.value)
             && f.maxLength.Some? && Utf8.ByteLen(v) > f.maxLength.value) ==>
      Check(f, s, Some(v), sv) == Reject(ValueTooLongError)
  {
  }

  /** A length bound on an optional field that was not submitted makes the
      source dereference nil. */
  lemma BoundOnAbsentValuePanics(i: Input, s: StateName, data: map<string, string>, stash: map<string, string>)
    requires i.dataType != JSONType && !SkippedOn(RulesOf(i), s) && i.name !in data
    requires i.required != Some(true)
    requires i.minLength.Some? || i.maxLength.Some?
    ensures Validate(i, s, data, stash) == Panicked
  {
  }

  /** A submitted e-mail value within its bounds that does not match the e-mail
      expression fails with EmailInvalidError; one that matches is accepted. */
  lemma EmailRuleDecides(f: FieldRules, s: StateName, v: string, sv: Option<string>)
    requires f.dataType == EmailType && !SkippedOn(f, s)
    requires !Violates(RequiredRule, f, Some(v), sv) && !Violates(CompareRule, f, Some(v), sv)
    requires !Violates(MinLengthRule, f, Some(v), sv) && !Violates(MaxLengthRule, f, Some(v), sv)
    ensures Check(f, s, Some(v), sv) == if EmailPattern.Matches(v) then Pass else Reject(EmailInvalidError)
  {
    EmailPattern.MatchEmailCorrect(v);
  }

  /** A required e-mail field submitted with a non-empty value that does not
      match the e-mail expression fails with EmailInvalidError. */
  lemma RequiredEmailMismatch(name: string, v: string, s: StateName)
    requires v != "" && !EmailPattern.Matches(v)
    ensures
      var i := Required(EmailInput(name), true);
      Validate(i, s, map[name := v], map[]) == Fail(i, EmailInvalidError)
  {
    var i := Required(EmailInput(name), true);
    EmailRuleDecides(RulesOf(i), s, v, None);
  }

  /** A required e-mail field submitted as "not-an-email" fails with
      EmailInvalidError. */
  lemma NotAnEmailIsRejected(s: StateName)
    ensures
      var i := Required(EmailInput("email"), true);
      Validate(i, s, map["email" := "not-an-email"], map[]) == Fail(i, EmailInvalidError)
  {
    var v := "not-an-email";
    assert !EmailPattern.Matches(v) by {
      assert forall k :: 0 <= k < |v| ==> v[k] != '@';
    }
    RequiredEmailMismatch("email", v, s);
  }

  /** Lengths are bytes: a one-character value of two UTF-8 bytes meets a
      minimum length of two. */
  lemma MinLengthCountsBytes(s: StateName)
    ensures
      var i := MinLength(PasswordInput("password"), 2);
      Validate(i, s, map["password" := "é"], map[]) == Returned(true, i)
  {
    assert Utf8.ByteLen("é") == 2 by {
      assert "é"[1..] == "";
    }
  }

  /** Setting required to false validates exactly like leaving it unset. */
  lemma RequiredFalseActsAsUnset(f: FieldRules, s: StateName, v: Option<string>, sv: Option<string>)
    ensures Check(f.(required := Some(false)), s, v, sv) == Check(f.(required := None), s, v, sv)
  {
  }

  /** Two outcomes agree on everything but the configuration of the field:
      both panic, or both return the same verdict and the same error code. */
  predicate SameVerdict(r1: Outcome, r2: Outcome) {
    && r1.Panicked? == r2.Panicked?
    && (r1.Returned? && r2.Returned? ==> r1.ok == r2.ok && r1.input.errorType == r2.input.errorType)
  }

  /** The hidden, preserve and persist flags and the echoed value never change
      what validation decides. */
  lemma PresentationIgnoredByValidate(i: Input, h: bool, k: bool, p: bool, x: string, s: StateName,
                                      data: map<string, string>, stash: map<string, string>)
    ensures SameVerdict(Validate(SetValue(Persist(Preserve(Hidden(i, h), k), p), x), s, data, stash),
                        Validate(i, s, data, stash))
  {
    assert RulesOf(SetValue(Persist(Preserve(Hidden(i, h), k), p), x)) == RulesOf(i);
  }

  /** The including states are replaced, not extended, so only the latest list
      decides where the field applies. */
  lemma IncludeOnStateReplaces(i: Input, a: seq<StateName>, b: seq<StateName>, s: StateName)
    ensures ConditionalIncludeOnState(ConditionalIncludeOnState(i, a), b) == ConditionalIncludeOnState(i, b)
    ensures IsIncludedOnState(ConditionalIncludeOnState(ConditionalIncludeOnState(i, a), b), s)
      <==> |b| == 0 || s in b
  {
  }

  /** The field with its four engine-only options reset to the factory defaults. */
  function StripOptions(i: Input): Input {
    i.(preserveValue := false, persistValue := false, includeOnStates := [], compareWithStash := false)
  }

  /** Two fields have the same public view exactly when they agree on all
      attributes other than the preserve, persist, including-states and
      compare-with-stash options. */
  lemma PublicViewIgnoresOnlyOptions(i: Input, j: Input)
    ensures ToPublicInput(i) == ToPublicInput(j) <==> StripOptions(i) == StripOptions(j)
  {
  }

  /** A value set on a field shows in its public view whatever its preserve flag. */
  lemma PublicViewShowsUnpreservedValue(i: Input, v: string)
    ensures ToPublicInput(SetValue(Preserve(i, false), v)).value == Some(v)
  {
  }
}

=== FILE: saml_handler.dfy ===
/** The pure decisions of the SAML handler: which identity providers are
    served, how a provider is found for a domain, when a failed sign-in is
    written to the audit log, and where a failure redirects to. Provider
    initialisation (metadata fetching, certificates) and the database listing
    are not modelled; they enter as parameters. */
module SamlHandler {
  import opened Wrappers
  import GoStrings

  /** The configuration of one identity provider, as far as the handler reads
      or copies it. */
  datatype IdentityProvider = IdentityProvider(
    enabled: bool,
    name: string,
    domain: string,
    metadataUrl: string,
    skipEmailVerification: bool)

  /** One identity provider row of the database. */
  datatype DbIdentityProvider = DbIdentityProvider(
    enabled: bool,
    name: string,
    domain: string,
    metadataUrl: string,
    skipEmailVerification: bool)

  /** An initialised service provider; `domain` is what its `GetDomain` reports. */
  datatype ServiceProvider = ServiceProvider(domain: string, config: IdentityProvider)

  /** Provider initialisation, which may fail with an error message. */
  type Initializer = IdentityProvider -> Result<ServiceProvider, string>

  /** The configuration built from a database row. */
  function ToConfig(row: DbIdentityProvider): (c: IdentityProvider)
    ensures c.enabled == row.enabled && c.name == row.name && c.domain == row.domain
    ensures c.metadataUrl == row.metadataUrl && c.skipEmailVerification == row.skipEmailVerification
  {
    IdentityProvider(row.enabled, row.name, row.domain, row.metadataUrl, row.skipEmailVerification)
  }

  // ---------------------------------------------------------------------
  // Reference definitions

  /** The enabled configurations, in order. */
  function Enabled(configs: seq<IdentityProvider>): (r: seq<IdentityProvider>)
    ensures forall c <- r :: c in configs && c.enabled
    ensures forall c <- configs :: c.enabled ==> c in r
  {
    if |configs| == 0 then []
    else if configs[0].enabled then [configs[0]] + Enabled(configs[1..])
    else Enabled(configs[1..])
  }

  /** Some provider in `providers` reports `domain`. */
  predicate Registered(providers: seq<ServiceProvider>, domain: string) {
    exists p <- providers :: p.domain == domain
  }

  /** The database rows that are turned into providers: the enabled ones
      whose domain no configured provider reports, in list order. */
  function Accepted(configured: seq<ServiceProvider>, rows: seq<DbIdentityProvider>): (r: seq<DbIdentityProvider>)
    ensures forall row <- r :: row in rows && row.enabled && !Registered(configured, row.domain)
    ensures forall row <- rows :: row.enabled && !Registered(configured, row.domain) ==> row in r
  {
    if |rows| == 0 then []
    else if rows[0].enabled && !Registered(configured, rows[0].domain) then
      [rows[0]] + Accepted(configured, rows[1..])
    else
      Accepted(configured, rows[1..])
  }

  /** Initialises each configuration in turn; the first failure is the result. */
  function InitAll(configs: seq<IdentityProvider>, init: Initializer): (r: Result<seq<ServiceProvider>, string>)
    ensures r.Success? <==> forall c <- configs :: init(c).Success?
    ensures r.Success? ==> |r.value| == |configs| && forall k :: 0 <= k < |configs| ==> r.value[k] == init(configs[k]).value
  {
    if |configs| == 0 then Success([])
    else match init(configs[0])
      case Failure(e) => Failure(e)
      case Success(sp) =>
        match InitAll(configs[1..], init)
        case Failure(e) => Failure(e)
        case Success(rest) => Success([sp] + rest)
  }

  /** A failing initialisation reports the error of the first configuration
      that fails; later ones are not reached. */
  lemma {:induction false} InitAllFailsAtFirst(configs: seq<IdentityProvider>, init: Initializer)
    ensures InitAll(configs, init).Failure? ==>
      exists k :: FirstFailure(configs, init, k) && InitAll(configs, init).error == init(configs[k]).error
  {
    if |configs| > 0 {
      if init(configs[0]).Failure? {
        assert FirstFailure(configs, init, 0);
      } else if InitAll(configs[1..], init).Failure? {
        InitAllFailsAtFirst(configs[1..], init);
        var k :| FirstFailure(configs[1..], init, k) && InitAll(configs[1..], init).error == init(configs[1..][k]).error;
        assert FirstFailure(configs, init, k + 1);
      }
    }
  }

  /** Index `k` holds the first configuration whose initialisation fails. */
  ghost predicate FirstFailure(configs: seq<IdentityProvider>, init: Initializer, k: int) {
    && 0 <= k < |configs| && init(configs[k]).Failure?
    && forall j :: 0 <= j < k ==> init(configs[j]).Success?
  }

  // ---------------------------------------------------------------------
  // Start-up and the merge with database providers

  /** The providers served from configuration: every enabled configuration
      is initialised, in order; a failure aborts start-up (a panic in the
      handler's constructor), represented here as `Failure`. */
  function ConfiguredProviders(configs: seq<IdentityProvider>, init: Initializer): (r: Result<seq<ServiceProvider>, string>)
    ensures r.Success? ==> |r.value| <= |configs|
  {
    if |configs| == 0 then Success([])
    else if !configs[0].enabled then ConfiguredProviders(configs[1..], init)
    else match init(configs[0])
      case Failure(e) => Failure(e)
      case Success(sp) =>
        match ConfiguredProviders(configs[1..], init)
        case Failure(e) => Failure(e)
        case Success(rest) => Success([sp] + rest)
  }

  /** The providers appended for the database rows, in list order; the
      first row whose initialisation fails ends the merge with its error. */
  function MergeRows(configured: seq<ServiceProvider>, rows: seq<DbIdentityProvider>, init: Initializer): (r: Result<seq<ServiceProvider>, string>)
    ensures r.Success? ==> |r.value| <= |rows|
  {
    if |rows| == 0 then Success([])
    else if !rows[0].enabled || Registered(configured, rows[0].domain) then
      MergeRows(configured, rows[1..], init)
    else match init(ToConfig(rows[0]))
      case Failure(e) => Failure(e)
      case Success(sp) =>
        match MergeRows(configured, rows[1..], init)
        case Failure(e) => Failure(e)
        case Success(rest) => Success([sp] + rest)
  }

  /** The providers a request can use: the configured ones followed by the
      accepted database providers. An error from the database listing, or
      from initialising any accepted row, is the result instead. */
  function AddDbProviders(configured: seq<ServiceProvider>, listed: Result<seq<DbIdentityProvider>, string>, init: Initializer): (r: Result<seq<ServiceProvider>, string>)
    ensures listed.Failure? ==> r == Failure(listed.error)
    ensures r.Success? ==> |r.value| >= |configured| && r.value[..|configured|] == configured
  {
    match listed
    case Failure(e) => Failure(e)
    case Success(rows) =>
      match MergeRows(configured, rows, init)
      case Failure(e) => Failure(e)
      case Success(added) => Success(configured + added)
  }

  /** Start-up initialises exactly the enabled configurations, in order. */
  lemma {:induction false} ConfiguredProvidersAreEnabledOnes(configs: seq<IdentityProvider>, init: Initializer)
    ensures ConfiguredProviders(configs, init) == InitAll(Enabled(configs), init)
  {
    if |configs| > 0 {
      ConfiguredProvidersAreEnabledOnes(configs[1..], init);
      if configs[0].enabled {
        assert Enabled(configs)[1..] == Enabled(configs[1..]);
      }
    }
  }

  /** The merge initialises exactly the accepted rows, in order. */
  lemma {:induction false} MergeRowsInitialisesAccepted(configured: seq<ServiceProvider>, rows: seq<DbIdentityProvider>, init: Initializer)
    ensures MergeRows(configured, rows, init) == InitAll(ToConfigs(Accepted(configured, rows)), init)
  {
    if |rows| > 0 {
      MergeRowsInitialisesAccepted(configured, rows[1..], init);
      var acc := Accepted(configured, rows);
      if rows[0].enabled && !Registered(configured, rows[0].domain) {
        assert ToConfigs(acc)[0] == ToConfig(rows[0]);
        assert ToConfigs(acc)[1..] == ToConfigs(acc[1..]);
      }
    }
  }

  function ToConfigs(rows: seq<DbIdentityProvider>): (r: seq<IdentityProvider>)
    ensures |r| == |rows| && forall k :: 0 <= k < |rows| ==> r[k] == ToConfig(rows[k])
  {
    if |rows| == 0 then [] else [ToConfig(rows[0])] + ToConfigs(rows[1..])
  }

  /** What the merge yields, stated without the loop: the configured
      providers followed by one initialised provider per accepted row; it
      fails exactly when the listing fails or some accepted row's
      initialisation fails. */
  lemma AddDbProvidersResult(configured: seq<ServiceProvider>, listed: Result<seq<DbIdentityProvider>, string>, init: Initializer)
    ensures var r := AddDbProviders(configured, listed, init);
      && (r.Success? <==> listed.Success? && forall row <- Accepted(configured, listed.value) :: init(ToConfig(row)).Success?)
      && (r.Success? ==>
            var acc := Accepted(configured, listed.value);
            && |r.value| == |configured| + |acc|
            && forall k :: 0 <= k < |acc| ==> r.value[|configured| + k] == init(ToConfig(acc[k])).value)
  {
    if listed.Success? {
      var acc := Accepted(configured, listed.value);
      MergeRowsInitialisesAccepted(configured, listed.value, init);
      assert forall row <- acc :: ToConfig(row) in ToConfigs(acc) by {
        forall row <- acc ensures ToConfig(row) in ToConfigs(acc) {
          var k :| 0 <= k < |acc| && acc[k] == row;
          assert ToConfigs(acc)[k] == ToConfig(row);
        }
      }
    }
  }

  /** Rows are appended on their own merits: with every row enabled, no row
      sharing a configured domain and every initialisation succeeding, each
      row adds one provider, so two rows with the same domain are both
      appended. */
  lemma DuplicateDbDomainsBothAppended(configured: seq<ServiceProvider>, rows: seq<DbIdentityProvider>, init: Initializer)
    requires forall row <- rows :: row.enabled && !Registered(configured, row.domain)
    requires forall row <- rows :: init(ToConfig(row)).Success?
    ensures AddDbProviders(configured, Success(rows), init).Success?
    ensures |AddDbProviders(configured, Success(rows), init).value| == |configured| + |rows|
  {
    AddDbProvidersResult(configured, Success(rows), init);
    AcceptsAllEligible(configured, rows);
  }

  lemma {:induction false} AcceptsAllEligible(configured: seq<ServiceProvider>, rows: seq<DbIdentityProvider>)
    requires forall row <- rows :: row.enabled && !Registered(configured, row.domain)
    ensures Accepted(configured, rows) == rows
  {
    if |rows| > 0 {
      assert rows[0] in rows;
      AcceptsAllEligible(configured, rows[1..]);
      assert [rows[0]] + rows[1..] == rows;
    }
  }

  // ---------------------------------------------------------------------
  // Lookup by domain

  datatype LookupError = NoProviderConfigured | UnknownProvider(domain: string)

  /** The index of the first provider from `from` on that reports `domain`. */
  function FirstFrom(domain: string, providers: seq<ServiceProvider>, from: nat): (r: Option<nat>)
    requires from <= |providers|
    ensures r.Some? ==> from <= r.value < |providers| && providers[r.value].domain == domain
    ensures r.Some? ==> forall j :: from <= j < r.value ==> providers[j].domain != domain
    ensures r.None? ==> forall j :: from <= j < |providers| ==> providers[j].domain != domain
    decreases |providers| - from
  {
    if from == |providers| then None
    else if providers[from].domain == domain then Some(from)
    else FirstFrom(domain, providers, from + 1)
  }

  /** The provider serving `domain`: the first in the list that reports it.
      An empty list and an unknown domain are distinct errors. */
  function GetProviderByDomain(domain: string, providers: seq<ServiceProvider>): (r: Result<ServiceProvider, LookupError>)
    ensures |providers| == 0 <==> r == Failure(NoProviderConfigured)
    ensures r.Success? <==> Registered(providers, domain)
    ensures r.Failure? && |providers| > 0 ==> r.error == UnknownProvider(domain)
    ensures forall k | 0 <= k < |providers| && providers[k].domain == domain && (forall j | 0 <= j < k :: providers[j].domain != domain) ::
      r == Success(providers[k])
  {
    if |providers| == 0 then Failure(NoProviderConfigured)
    else match FirstFrom(domain, providers, 0)
      case Some(k) => Success(providers[k])
      case None => Failure(UnknownProvider(domain))
  }

  /** Configured providers win: whenever a configured provider reports the
      domain, the merged list yields the same provider the configured list
      alone would, whatever the database holds. */
  lemma ConfiguredProviderWins(configured: seq<ServiceProvider>, listed: Result<seq<DbIdentityProvider>, string>, init: Initializer, domain: string)
    requires AddDbProviders(configured, listed, init).Success?
    requires Registered(configured, domain)
    ensures GetProviderByDomain(domain, AddDbProviders(configured, listed, init).value) == GetProviderByDomain(domain, configured)
  {
    var merged := AddDbProviders(configured, listed, init).value;
    var k := FirstFrom(domain, configured, 0).value;
    assert merged[..|configured|] == configured;
    assert forall j | 0 <= j <= k :: merged[j] == configured[j];
  }

  // ---------------------------------------------------------------------
  // Audit log and redirects

  /** The error code the third-party package uses for server-side failures. */
  const ErrorCodeServerError: string := "server_error"

  /** An error value: a third-party error with its code, an error wrapping
      another, or any other error. */
  datatype Error =
    | ThirdPartyError(code: string)
    | Wrapped(message: string, cause: Error)
    | Plain(message: string)

  /** Go's `errors.As` for the third-party error type: the code of the first
      third-party error along the wrapping chain. */
  function AsThirdParty(e: Error): (r: Option<string>)
    ensures e.ThirdPartyError? ==> r == Some(e.code)
    ensures e.Plain? ==> r.None?
    ensures r.Some? <==> exists code :: Wraps(e, ThirdPartyError(code))
    ensures r.Some? ==> Wraps(e, ThirdPartyError(r.value))
    ensures forall code :: Wraps(e, ThirdPartyError(code)) ==> r == Some(code)
  {
    match e
    case ThirdPartyError(code) => Some(code)
    case Wrapped(_, cause) => AsThirdParty(cause)
    case Plain(_) => None
  }

  /** A failed sign-in is written to the audit log when the error is (or
      wraps) a third-party error whose code is not the server-error code. A
      wrapping chain holds at most one third-party error, so the first one
      along the chain decides. */
  predicate ShouldAudit(e: Error)
    ensures ShouldAudit(e) <==> exists code :: Wraps(e, ThirdPartyError(code)) && code != ErrorCodeServerError
  {
    match AsThirdParty(e)
    case Some(code) => code != ErrorCodeServerError
    case None => false
  }

  /** `e` is `inner` under zero or more wrappers. */
  predicate Wraps(e: Error, inner: Error) {
    e == inner || (e.Wrapped? && Wraps(e.cause, inner))
  }

  /** The page a failed sign-in start redirects to: the Referer header, or
      the default redirect URL when the header is missing or empty. */
  function ErrorRedirectTarget(referer: Option<string>, defaultUrl: string): (r: string)
    ensures r == defaultUrl || (referer.Some? && r == referer.value)
    ensures referer.Some? && referer.value != "" ==> r == referer.value
    ensures referer.None? || referer.value == "" ==> r == defaultUrl
  {
    var header := match referer case Some(v) => v case None => "";
    if header == "" then defaultUrl else header
  }

  /** The two fallbacks differ: a Referer made only of white space is used as
      it is, while the same callback target is replaced by the default. */
  lemma BlankRefererIsKept(blank: string, defaultUrl: string)
    requires blank != "" && GoStrings.AllSpace(blank)
    ensures ErrorRedirectTarget(Some(blank), defaultUrl) == blank
    ensures CallbackRedirectTarget(blank, defaultUrl) == defaultUrl
  {
  }

  /** Where a completed callback redirects: the redirect recorded in the
      state, untrimmed, unless it is blank after trimming white space, in
      which case the default redirect URL. */
  function CallbackRedirectTarget(redirectTo: string, defaultUrl: string): (r: string)
    ensures GoStrings.AllSpace(redirectTo) ==> r == defaultUrl
    ensures !GoStrings.AllSpace(redirectTo) ==> r == redirectTo
  {
    if GoStrings.TrimSpace(redirectTo) == "" then defaultUrl else redirectTo
  }
}

=== FILE: stash_paths.dfy ===
/** The stash paths of the shared flow vocabulary: keys into the stash
    document, where a dot separates nested keys. Values are kept exactly as
    declared, including `StashPathUserHasOTPSecret`, which is spelt
    "user_hat_otp_secret". */
module StashPaths {
  import opened Vocabulary

  const StashPathEmail: string := "email"
  const StashPathEmailVerified: string := "email_verified"
  const StashPathLoginMethod: string := "login_method"
  const StashPathLoginOnboardingCreateEmail: string := "login_onboarding_create_email"
  const StashPathLoginOnboardingScheduled: string := "login_onboarding_scheduled"
  const StashPathMFAUsageMethod: string := "mfa_method"
  const StashPathCreateMFAOnlyCredential: string := "create_mfa_only_credential"
  const StashPathNewPassword: string := "new_password"
  const StashPathOTPSecret: string := "otp_secret"
  const StashPathOTPImageSource: string := "otp_image_src"
  const StashPathPasscodeEmail: string := "sticky.passcode_email"
  const StashPathPasscodeID: string := "sticky.passcode_id"
  const StashPathPasscodeTemplate: string := "passcode_template"
  const StashPathSkipUserCreation: string := "skip_user_creation"
  const StashPathUserHasEmails: string := "user_has_emails"
  const StashPathUserHasOTPSecret: string := "user_hat_otp_secret"
  const StashPathUserHasPasskey: string := "user_has_passkey"
  const StashPathUserHasPassword: string := "user_has_password"
  const StashPathUserHasSecurityKey: string := "user_has_security_key"
  const StashPathUserHasUsername: string := "user_has_username"
  const StashPathUserHasWebauthnCredential: string := "user_has_webauthn_credential"
  const StashPathUserID: string := "user_id"
  const StashPathUserIdentification: string := "user_identification"
  const StashPathUsername: string := "username"
  const StashPathWebauthnAvailable: string := "webauthn_available"
  const StashPathWebauthnConditionalMediationAvailable: string := "webauthn_conditional_mediation_available"
  const StashPathWebauthnCredentials: string := "webauthn_credentials"
  const StashPathWebauthnPlatformAuthenticatorAvailable: string := "webauthn_platform_authenticator_available"
  const StashPathWebauthnSessionDataID: string := "webauthn_session_data_id"

  // The declaration order, written as short consecutive groups so that
  // the shape of the paths can be proved group by group.
  const StashGroup0: seq<string> := [
    StashPathEmail, StashPathEmailVerified, StashPathLoginMethod,
    StashPathLoginOnboardingCreateEmail, StashPathLoginOnboardingScheduled]
  const StashGroup1: seq<string> := [
    StashPathMFAUsageMethod, StashPathCreateMFAOnlyCredential, StashPathNewPassword,
    StashPathOTPSecret, StashPathOTPImageSource]
  const StashGroup2: seq<string> := [
    StashPathPasscodeEmail, StashPathPasscodeID, StashPathPasscodeTemplate,
    StashPathSkipUserCreation, StashPathUserHasEmails]
  const StashGroup3: seq<string> := [
    StashPathUserHasOTPSecret, StashPathUserHasPasskey, StashPathUserHasPassword,
    StashPathUserHasSecurityKey, StashPathUserHasUsername]
  const StashGroup4: seq<string> := [
    StashPathUserHasWebauthnCredential, StashPathUserID, StashPathUserIdentification,
    StashPathUsername, StashPathWebauthnAvailable]
  const StashGroup5: seq<string> := [
    StashPathWebauthnConditionalMediationAvailable, StashPathWebauthnCredentials]
  const StashGroup6: seq<string> := [
    StashPathWebauthnPlatformAuthenticatorAvailable, StashPathWebauthnSessionDataID]

  /** Every stash path of the vocabulary, in declaration order. */
  const AllStashPaths: seq<string> :=
    StashGroup0 + StashGroup1 + StashGroup2 + StashGroup3 + StashGroup4 + StashGroup5 +
    StashGroup6

  /** No two stash paths share a value. */
  lemma AllStashPathsDistinct()
    ensures |AllStashPaths| == 29
    ensures PairwiseDistinct(AllStashPaths)
  {
  }

  // Shape of each path, proved a few paths at a time: apart from the two
  // sticky paths every path is a single snake-case key, and none is six
  // characters long.

  lemma ShapeOfStashGroup0Part0Letters()
    ensures LowerOrUnderscore(StashPathEmail)
    ensures LowerOrUnderscore(StashPathEmailVerified)
    ensures LowerOrUnderscore(StashPathLoginMethod)
  {
  }

  lemma ShapeOfStashGroup0Part0Underscores()
    ensures NoDoubleUnderscore(StashPathEmail)
    ensures NoDoubleUnderscore(StashPathEmailVerified)
    ensures NoDoubleUnderscore(StashPathLoginMethod)
  {
  }

  lemma ShapeOfStashGroup0Part0()
    ensures SnakeCase(StashPathEmail) && |StashPathEmail| != 6
    ensures SnakeCase(StashPathEmailVerified) && |StashPathEmailVerified| != 6
    ensures SnakeCase(StashPathLoginMethod) && |StashPathLoginMethod| != 6
  {
    ShapeOfStashGroup0Part0Letters();
    ShapeOfStashGroup0Part0Underscores();
  }

  lemma ShapeOfStashGroup0Part1Letters()
    ensures LowerOrUnderscore(StashPathLoginOnboardingCreateEmail)
  {
  }

  lemma ShapeOfStashGroup0Part1Underscores()
    ensures NoDoubleUnderscore(StashPathLoginOnboardingCreateEmail)
  {
  }

  lemma ShapeOfStashGroup0Part1()
    ensures SnakeCase(StashPathLoginOnboardingCreateEmail) && |StashPathLoginOnboardingCreateEmail| != 6
  {
    ShapeOfStashGroup0Part1Letters();
    ShapeOfStashGroup0Part1Underscores();
  }

  lemma ShapeOfStashGroup0Part2Letters()
    ensures LowerOrUnderscore(StashPathLoginOnboardingScheduled)
  {
  }

  lemma ShapeOfStashGroup0Part2Underscores()
    ensures NoDoubleUnderscore(StashPathLoginOnboardingScheduled)
  {
  }

  lemma ShapeOfStashGroup0Part2()
    ensures SnakeCase(StashPathLoginOnboardingScheduled) && |StashPathLoginOnboardingScheduled| != 6
  {
    ShapeOfStashGroup0Part2Letters();
    ShapeOfStashGroup0Part2Underscores();
  }

  lemma ShapeOfStashGroup0()
    ensures All(StashGroup0, WellShaped)
  {
    ShapeOfStashGroup0Part0();
    ShapeOfStashGroup0Part1();
    ShapeOfStashGroup0Part2();
  }

  lemma ShapeOfStashGroup1Part0Letters()
    ensures LowerOrUnderscore(StashPathMFAUsageMethod)
  {
  }

  lemma ShapeOfStashGroup1Part0Underscores()
    ensures NoDoubleUnderscore(StashPathMFAUsageMethod)
  {
  }

  lemma ShapeOfStashGroup1Part0()
    ensures SnakeCase(StashPathMFAUsageMethod) && |StashPathMFAUsageMethod| != 6
  {
    ShapeOfStashGroup1Part0Letters();
    ShapeOfStashGroup1Part0Underscores();
  }

  lemma ShapeOfStashGroup1Part1Letters()
    ensures LowerOrUnderscore(StashPathCreateMFAOnlyCredential)
  {
  }

  lemma ShapeOfStashGroup1Part1Underscores()
    ensures NoDoubleUnderscore(StashPathCreateMFAOnlyCredential)
  {
  }

  lemma ShapeOfStashGroup1Part1()
    ensures SnakeCase(StashPathCreateMFAOnlyCredential) && |StashPathCreateMFAOnlyCredential| != 6
  {
    ShapeOfStashGroup1Part1Letters();
    ShapeOfStashGroup1Part1Underscores();
  }

  lemma ShapeOfStashGroup1Part2Letters()
    ensures LowerOrUnderscore(StashPathNewPassword)
    ensures LowerOrUnderscore(StashPathOTPSecret)
    ensures LowerOrUnderscore(StashPathOTPImageSource)
  {
  }

  lemma ShapeOfStashGroup1Part2Underscores()
    ensures NoDoubleUnderscore(StashPathNewPassword)
    ensures NoDoubleUnderscore(StashPathOTPSecret)
    ensures NoDoubleUnderscore(StashPathOTPImageSource)
  {
  }

  lemma ShapeOfStashGroup1Part2()
    ensures SnakeCase(StashPathNewPassword) && |StashPathNewPassword| != 6
    ensures SnakeCase(StashPathOTPSecret) && |StashPathOTPSecret| != 6
    ensures SnakeCase(StashPathOTPImageSource) && |StashPathOTPImageSource| != 6
  {
    ShapeOfStashGroup1Part2Letters();
    ShapeOfStashGroup1Part2Underscores();
  }

  lemma ShapeOfStashGroup1()
    ensures All(StashGroup1, WellShaped)
  {
    ShapeOfStashGroup1Part0();
    ShapeOfStashGroup1Part1();
    ShapeOfStashGroup1Part2();
  }

  lemma ShapeOfStashGroup2Part0Letters()
    ensures LowerOrUnderscore(StashPathPasscodeTemplate)
  {
  }

  lemma ShapeOfStashGroup2Part0Underscores()
    ensures NoDoubleUnderscore(StashPathPasscodeTemplate)
  {
  }

  lemma ShapeOfStashGroup2Part0()
    ensures SnakeCase(StashPathPasscodeTemplate) && |StashPathPasscodeTemplate| != 6
  {
    ShapeOfStashGroup2Part0Letters();
    ShapeOfStashGroup2Part0Underscores();
  }

  lemma ShapeOfStashGroup2Part1Letters()
    ensures LowerOrUnderscore(StashPathSkipUserCreation)
    ensures LowerOrUnderscore(StashPathUserHasEmails)
  {
  }

  lemma ShapeOfStashGroup2Part1Underscores()
    ensures NoDoubleUnderscore(StashPathSkipUserCreation)
    ensures NoDoubleUnderscore(StashPathUserHasEmails)
  {
  }

  lemma ShapeOfStashGroup2Part1()
    ensures SnakeCase(StashPathSkipUserCreation) && |StashPathSkipUserCreation| != 6
    ensures SnakeCase(StashPathUserHasEmails) && |StashPathUserHasEmails| != 6
  {
    ShapeOfStashGroup2Part1Letters();
    ShapeOfStashGroup2Part1Underscores();
  }

  lemma ShapeOfStashGroup2()
    ensures All(StashGroup2, WellShaped)
  {
    ShapeOfStashGroup2Part0();
    ShapeOfStashGroup2Part1();
  }

  lemma ShapeOfStashGroup3Part0Letters()
    ensures LowerOrUnderscore(StashPathUserHasOTPSecret)
  {
  }

  lemma ShapeOfStashGroup3Part0Underscores()
    ensures NoDoubleUnderscore(StashPathUserHasOTPSecret)
  {
  }

  lemma ShapeOfStashGroup3Part0()
    ensures SnakeCase(StashPathUserHasOTPSecret) && |StashPathUserHasOTPSecret| != 6
  {
    ShapeOfStashGroup3Part0Letters();
    ShapeOfStashGroup3Part0Underscores();
  }

  lemma ShapeOfStashGroup3Part1Letters()
    ensures LowerOrUnderscore(StashPathUserHasPasskey)
    ensures LowerOrUnderscore(StashPathUserHasPassword)
  {
  }

  lemma ShapeOfStashGroup3Part1Underscores()
    ensures NoDoubleUnderscore(StashPathUserHasPasskey)
    ensures NoDoubleUnderscore(StashPathUserHasPassword)
  {
  }

  lemma ShapeOfStashGroup3Part1()
    ensures SnakeCase(StashPathUserHasPasskey) && |StashPathUserHasPasskey| != 6
    ensures SnakeCase(StashPathUserHasPassword) && |StashPathUserHasPassword| != 6
  {
    ShapeOfStashGroup3Part1Letters();
    ShapeOfStashGroup3Part1Underscores();
  }

  lemma ShapeOfStashGroup3Part2Letters()
    ensures LowerOrUnderscore(StashPathUserHasSecurityKey)
  {
  }

  lemma ShapeOfStashGroup3Part2Underscores()
    ensures NoDoubleUnderscore(StashPathUserHasSecurityKey)
  {
  }

  lemma ShapeOfStashGroup3Part2()
    ensures SnakeCase(StashPathUserHasSecurityKey) && |StashPathUserHasSecurityKey| != 6
  {
    ShapeOfStashGroup3Part2Letters();
    ShapeOfStashGroup3Part2Underscores();
  }

  lemma ShapeOfStashGroup3Part3Letters()
    ensures LowerOrUnderscore(StashPathUserHasUsername)
  {
  }

  lemma ShapeOfStashGroup3Part3Underscores()
    ensures NoDoubleUnderscore(StashPathUserHasUsername)
  {
  }

  lemma ShapeOfStashGroup3Part3()
    ensures SnakeCase(StashPathUserHasUsername) && |StashPathUserHasUsername| != 6
  {
    ShapeOfStashGroup3Part3Letters();
    ShapeOfStashGroup3Part3Underscores();
  }

  lemma ShapeOfStashGroup3()
    ensures All(StashGroup3, WellShaped)
  {
    ShapeOfStashGroup3Part0();
    ShapeOfStashGroup3Part1();
    ShapeOfStashGroup3Part2();
    ShapeOfStashGroup3Part3();
  }

  lemma ShapeOfStashGroup4Part0Letters()
    ensures LowerOrUnderscore(StashPathUserHasWebauthnCredential)
  {
  }

  lemma ShapeOfStashGroup4Part0Underscores()
    ensures NoDoubleUnderscore(StashPathUserHasWebauthnCredential)
  {
  }

  lemma ShapeOfStashGroup4Part0()
    ensures SnakeCase(StashPathUserHasWebauthnCredential) && |StashPathUserHasWebauthnCredential| != 6
  {
    ShapeOfStashGroup4Part0Letters();
    ShapeOfStashGroup4Part0Underscores();
  }

  lemma ShapeOfStashGroup4Part1Letters()
    ensures LowerOrUnderscore(StashPathUserID)
    ensures LowerOrUnderscore(StashPathUserIdentification)
    ensures LowerOrUnderscore(StashPathUsername)
  {
  }

  lemma ShapeOfStashGroup4Part1Underscores()
    ensures NoDoubleUnderscore(StashPathUserID)
    ensures NoDoubleUnderscore(StashPathUserIdentification)
    ensures NoDoubleUnderscore(StashPathUsername)
  {
  }

  lemma ShapeOfStashGroup4Part1()
    ensures SnakeCase(StashPathUserID) && |StashPathUserID| != 6
    ensures SnakeCase(StashPathUserIdentification) && |StashPathUserIdentification| != 6
    ensures SnakeCase(StashPathUsername) && |StashPathUsername| != 6
  {
    ShapeOfStashGroup4Part1Letters();
    ShapeOfStashGroup4Part1Underscores();
  }

  lemma ShapeOfStashGroup4Part2Letters()
    ensures LowerOrUnderscore(StashPathWebauthnAvailable)
  {
  }

  lemma ShapeOfStashGroup4Part2Underscores()
    ensures NoDoubleUnderscore(StashPathWebauthnAvailable)
  {
  }

  lemma ShapeOfStashGroup4Part2()
    ensures SnakeCase(StashPathWebauthnAvailable) && |StashPathWebauthnAvailable| != 6
  {
    ShapeOfStashGroup4Part2Letters();
    ShapeOfStashGroup4Part2Underscores();
  }

  lemma ShapeOfStashGroup4()
    ensures All(StashGroup4, WellShaped)
  {
    ShapeOfStashGroup4Part0();
    ShapeOfStashGroup4Part1();
    ShapeOfStashGroup4Part2();
  }

  lemma ShapeOfStashGroup5Part0Letters()
    ensures LowerOrUnderscore(StashPathWebauthnConditionalMediationAvailable)
  {
  }

  lemma ShapeOfStashGroup5Part0Underscores()
    ensures NoDoubleUnderscore(StashPathWebauthnConditionalMediationAvailable)
  {
  }

  lemma ShapeOfStashGroup5Part0()
    ensures SnakeCase(StashPathWebauthnConditionalMediationAvailable) && |StashPathWebauthnConditionalMediationAvailable| != 6
  {
    ShapeOfStashGroup5Part0Letters();
    ShapeOfStashGroup5Part0Underscores();
  }

  lemma ShapeOfStashGroup5Part1Letters()
    ensures LowerOrUnderscore(StashPathWebauthnCredentials)
  {
  }

  lemma ShapeOfStashGroup5Part1Underscores()
    ensures NoDoubleUnderscore(StashPathWebauthnCredentials)
  {
  }

  lemma ShapeOfStashGroup5Part1()
    ensures SnakeCase(StashPathWebauthnCredentials) && |StashPathWebauthnCredentials| != 6
  {
    ShapeOfStashGroup5Part1Letters();
    ShapeOfStashGroup5Part1Underscores();
  }

  lemma ShapeOfStashGroup5()
    ensures All(StashGroup5, WellShaped)
  {
    ShapeOfStashGroup5Part0();
    ShapeOfStashGroup5Part1();
  }

  lemma ShapeOfStashGroup6Part0Letters()
    ensures LowerOrUnderscore(StashPathWebauthnPlatformAuthenticatorAvailable)
  {
  }

  lemma ShapeOfStashGroup6Part0Underscores()
    ensures NoDoubleUnderscore(StashPathWebauthnPlatformAuthenticatorAvailable)
  {
  }

  lemma ShapeOfStashGroup6Part0()
    ensures SnakeCase(StashPathWebauthnPlatformAuthenticatorAvailable) && |StashPathWebauthnPlatformAuthenticatorAvailable| != 6
  {
    ShapeOfStashGroup6Part0Letters();
    ShapeOfStashGroup6Part0Underscores();
  }

  lemma ShapeOfStashGroup6Part1Letters()
    ensures LowerOrUnderscore(StashPathWebauthnSessionDataID)
  {
  }

  lemma ShapeOfStashGroup6Part1Underscores()
    ensures NoDoubleUnderscore(StashPathWebauthnSessionDataID)
  {
  }

  lemma ShapeOfStashGroup6Part1()
    ensures SnakeCase(StashPathWebauthnSessionDataID) && |StashPathWebauthnSessionDataID| != 6
  {
    ShapeOfStashGroup6Part1Letters();
    ShapeOfStashGroup6Part1Underscores();
  }

  lemma ShapeOfStashGroup6()
    ensures All(StashGroup6, WellShaped)
  {
    ShapeOfStashGroup6Part0();
    ShapeOfStashGroup6Part1();
  }

  /** Every path is well shaped. */
  lemma AllStashPathsShape()
    ensures All(AllStashPaths, WellShaped)
  {
    ShapeOfStashGroup0();
    ShapeOfStashGroup1();
    ShapeOfStashGroup2();
    ShapeOfStashGroup3();
    ShapeOfStashGroup4();
    ShapeOfStashGroup5();
    ShapeOfStashGroup6();
    AllConcat(StashGroup0, StashGroup1, WellShaped);
    AllConcat(StashGroup0 + StashGroup1, StashGroup2, WellShaped);
    AllConcat(StashGroup0 + StashGroup1 + StashGroup2, StashGroup3, WellShaped);
    AllConcat(StashGroup0 + StashGroup1 + StashGroup2 + StashGroup3, StashGroup4, WellShaped);
    AllConcat(StashGroup0 + StashGroup1 + StashGroup2 + StashGroup3 + StashGroup4, StashGroup5, WellShaped);
    AllConcat(StashGroup0 + StashGroup1 + StashGroup2 + StashGroup3 + StashGroup4 + StashGroup5, StashGroup6, WellShaped);
  }

  /** The two paths nested under the "sticky" key. */
  predicate IsSticky(p: string) {
    p == StashPathPasscodeEmail || p == StashPathPasscodeID
  }

  /** One of the two sticky paths, or a single snake-case key that is not
      six characters long (the length of "sticky"). */
  predicate WellShaped(p: string) {
    IsSticky(p) || (SnakeCase(p) && |p| != 6)
  }

  /** In "sticky." followed by a snake-case key the only dot is the separator. */
  lemma StickyDot(key: string)
    requires SnakeCase(key)
    ensures OnlyDotAt("sticky." + key, 6)
  {
    var p := "sticky." + key;
    forall k | 7 <= k < |p| ensures p[k] != '.' {
      assert p[k] == key[k - 7];
    }
  }

  /** Both sticky paths are "sticky." followed by a snake-case key, and the
      dot after "sticky" is the only one. */
  lemma StickyPaths()
    ensures forall p | IsSticky(p) :: |p| > 7 && p[..7] == "sticky." && OnlyDotAt(p, 6)
  {
    StickyPasscodeEmail();
    StickyPasscodeID();
  }

  lemma StickyPasscodeEmail()
    ensures |StashPathPasscodeEmail| > 7 && StashPathPasscodeEmail[..7] == "sticky." && OnlyDotAt(StashPathPasscodeEmail, 6)
  {
    StickyPath(StashPathPasscodeEmail, "passcode_email");
  }

  lemma StickyPasscodeID()
    ensures |StashPathPasscodeID| > 7 && StashPathPasscodeID[..7] == "sticky." && OnlyDotAt(StashPathPasscodeID, 6)
  {
    StickyPath(StashPathPasscodeID, "passcode_id");
  }

  lemma StickyPath(p: string, key: string)
    requires p == "sticky." + key && SnakeCase(key)
    ensures |p| > 7 && p[..7] == "sticky." && OnlyDotAt(p, 6)
  {
    StickyDot(key);
  }

  /** Paths that are all well shaped have dots exactly in the sticky ones,
      none is "sticky" itself, and none is a proper dotted prefix of another. */
  lemma WellShapedPathsDoNotOverlap(paths: seq<string>)
    requires All(paths, WellShaped)
    ensures forall k :: 0 <= k < |paths| ==> (HasDot(paths[k]) <==> IsSticky(paths[k]))
    ensures forall k :: 0 <= k < |paths| ==> paths[k] != "sticky"
    ensures forall i, j :: 0 <= i < |paths| && 0 <= j < |paths| && paths[i] != paths[j] ==> !Overlap(paths[i], paths[j])
  {
    StickyPaths();
    forall k | 0 <= k < |paths| && !IsSticky(paths[k]) ensures !HasDot(paths[k]) {
      assert WellShaped(paths[k]);
    }
    forall i, j | 0 <= i < |paths| && 0 <= j < |paths| && DottedPrefix(paths[i], paths[j]) ensures false {
    }
  }

  /** Exactly the two sticky paths contain a dot. */
  lemma DottedPathsAreSticky()
    ensures forall k :: 0 <= k < |AllStashPaths| ==> (HasDot(AllStashPaths[k]) <==> IsSticky(AllStashPaths[k]))
  {
    AllStashPathsShape();
    WellShapedPathsDoNotOverlap(AllStashPaths);
  }

  /** No stash path is a proper dotted prefix of another, so setting one path
      never overwrites the value stored under another; in particular the
      "sticky" key itself is not a path. */
  lemma NoPathOverlaps()
    ensures forall i, j :: 0 <= i < |AllStashPaths| && 0 <= j < |AllStashPaths| && AllStashPaths[i] != AllStashPaths[j] ==>
      !Overlap(AllStashPaths[i], AllStashPaths[j])
    ensures forall k :: 0 <= k < |AllStashPaths| ==> AllStashPaths[k] != "sticky"
  {
    AllStashPathsShape();
    WellShapedPathsDoNotOverlap(AllStashPaths);
  }

  /** Values that differ from what their identifiers suggest are kept verbatim. */
  lemma KnownSpellings()
    ensures StashPathUserHasOTPSecret == "user_hat_otp_secret"
    ensures StashPathUserHasOTPSecret != "user_has_otp_secret"
    ensures StashPathMFAUsageMethod == "mfa_method"
    ensures StashPathOTPImageSource == "otp_image_src"
  {
  }
}

=== FILE: state_names.dfy ===
/** The state names of the shared flow vocabulary, with their values exactly
    as declared; where a value differs from its identifier (for instance
    `StateProfileAccountDeleted` is "account_deleted") the value is kept. */
module StateNames {
  import opened Flowpilot
  import opened Vocabulary
  import ActionNames

  const StateError: StateName := StateName("error")
  const StateLoginInit: StateName := StateName("login_init")
  const StateLoginMethodChooser: StateName := StateName("login_method_chooser")
  const StateLoginPasskey: StateName := StateName("login_passkey")
  const StateLoginPassword: StateName := StateName("login_password")
  const StateLoginPasswordRecovery: StateName := StateName("login_password_recovery")
  const StateOnboardingCreatePasskey: StateName := StateName("onboarding_create_passkey")
  const StateOnboardingVerifyPasskeyAttestation: StateName := StateName("onboarding_verify_passkey_attestation")
  const StatePasscodeConfirmation: StateName := StateName("passcode_confirmation")
  const StatePasswordCreation: StateName := StateName("password_creation")
  const StatePreflight: StateName := StateName("preflight")
  const StateProfileAccountDeleted: StateName := StateName("account_deleted")
  const StateProfileInit: StateName := StateName("profile_init")
  const StateProfileWebauthnCredentialVerification: StateName := StateName("webauthn_credential_verification")
  const StateRegisterPasskey: StateName := StateName("register_passkey")
  const StateRegistrationInit: StateName := StateName("registration_init")
  const StateRegistrationMethodChooser: StateName := StateName("registration_method_chooser")
  const StateSuccess: StateName := StateName("success")
  const StateThirdPartyOAuth: StateName := StateName("thirdparty_oauth")

  // The declaration order, written as short consecutive groups so that
  // the character classes can be proved group by group.
  const StateGroup0: seq<StateName> := [
    StateError, StateLoginInit, StateLoginMethodChooser, StateLoginPasskey, StateLoginPassword]
  const StateGroup1: seq<StateName> := [
    StateLoginPasswordRecovery, StateOnboardingCreatePasskey,
    StateOnboardingVerifyPasskeyAttestation]
  const StateGroup2: seq<StateName> := [
    StatePasscodeConfirmation, StatePasswordCreation, StatePreflight, StateProfileAccountDeleted,
    StateProfileInit]
  const StateGroup3: seq<StateName> := [
    StateProfileWebauthnCredentialVerification, StateRegisterPasskey, StateRegistrationInit,
    StateRegistrationMethodChooser, StateSuccess]
  const StateGroup4: seq<StateName> := [
    StateThirdPartyOAuth]

  /** Every state name of the vocabulary, in declaration order. */
  const AllStateNames: seq<StateName> :=
    StateGroup0 + StateGroup1 + StateGroup2 + StateGroup3 + StateGroup4

  /** No two names of the vocabulary share a value. */
  lemma AllStateNamesDistinct()
    ensures |AllStateNames| == 19
    ensures PairwiseDistinct(AllStateNames)
  {
  }

  // Character classes, proved a few names at a time.

  lemma SnakeCaseStateGroup0Part0Letters()
    ensures LowerOrUnderscore(StateError.value)
    ensures LowerOrUnderscore(StateLoginInit.value)
    ensures LowerOrUnderscore(StateLoginMethodChooser.value)
  {
  }

  lemma SnakeCaseStateGroup0Part0Underscores()
    ensures NoDoubleUnderscore(StateError.value)
    ensures NoDoubleUnderscore(StateLoginInit.value)
    ensures NoDoubleUnderscore(StateLoginMethodChooser.value)
  {
  }

  lemma SnakeCaseStateGroup0Part0()
    ensures SnakeCase(StateError.value)
    ensures SnakeCase(StateLoginInit.value)
    ensures SnakeCase(StateLoginMethodChooser.value)
  {
    SnakeCaseStateGroup0Part0Letters();
    SnakeCaseStateGroup0Part0Underscores();
  }

  lemma SnakeCaseStateGroup0Part1Letters()
    ensures LowerOrUnderscore(StateLoginPasskey.value)
    ensures LowerOrUnderscore(StateLoginPassword.value)
  {
  }

  lemma SnakeCaseStateGroup0Part1Underscores()
    ensures NoDoubleUnderscore(StateLoginPasskey.value)
    ensures NoDoubleUnderscore(StateLoginPassword.value)
  {
  }

  lemma SnakeCaseStateGroup0Part1()
    ensures SnakeCase(StateLoginPasskey.value)
    ensures SnakeCase(StateLoginPassword.value)
  {
    SnakeCaseStateGroup0Part1Letters();
    SnakeCaseStateGroup0Part1Underscores();
  }

  lemma SnakeCaseStateGroup0()
    ensures forall a <- StateGroup0 :: SnakeCase(a.value)
  {
    SnakeCaseStateGroup0Part0();
    SnakeCaseStateGroup0Part1();
  }

  lemma SnakeCaseStateGroup1Part0Letters()
    ensures LowerOrUnderscore(StateLoginPasswordRecovery.value)
  {
  }

  lemma SnakeCaseStateGroup1Part0Underscores()
    ensures NoDoubleUnderscore(StateLoginPasswordRecovery.value)
  {
  }

  lemma SnakeCaseStateGroup1Part0()
    ensures SnakeCase(StateLoginPasswordRecovery.value)
  {
    SnakeCaseStateGroup1Part0Letters();
    SnakeCaseStateGroup1Part0Underscores();
  }

  lemma SnakeCaseStateGroup1Part1Letters()
    ensures LowerOrUnderscore(StateOnboardingCreatePasskey.value)
  {
  }

  lemma SnakeCaseStateGroup1Part1Underscores()
    ensures NoDoubleUnderscore(StateOnboardingCreatePasskey.value)
  {
  }

  lemma SnakeCaseStateGroup1Part1()
    ensures SnakeCase(StateOnboardingCreatePasskey.value)
  {
    SnakeCaseStateGroup1Part1Letters();
    SnakeCaseStateGroup1Part1Underscores();
  }

  lemma SnakeCaseStateGroup1Part2Letters()
    ensures LowerOrUnderscore(StateOnboardingVerifyPasskeyAttestation.value)
  {
  }

  lemma SnakeCaseStateGroup1Part2Underscores()
    ensures NoDoubleUnderscore(StateOnboardingVerifyPasskeyAttestation.value)
  {
  }

  lemma SnakeCaseStateGroup1Part2()
    ensures SnakeCase(StateOnboardingVerifyPasskeyAttestation.value)
  {
    SnakeCaseStateGroup1Part2Letters();
    SnakeCaseStateGroup1Part2Underscores();
  }

  lemma SnakeCaseStateGroup1()
    ensures forall a <- StateGroup1 :: SnakeCase(a.value)
  {
    SnakeCaseStateGroup1Part0();
    SnakeCaseStateGroup1Part1();
    SnakeCaseStateGroup1Part2();
  }

  lemma SnakeCaseStateGroup2Part0Letters()
    ensures LowerOrUnderscore(StatePasscodeConfirmation.value)
  {
  }

  lemma SnakeCaseStateGroup2Part0Underscores()
    ensures NoDoubleUnderscore(StatePasscodeConfirmation.value)
  {
  }

  lemma SnakeCaseStateGroup2Part0()
    ensures SnakeCase(StatePasscodeConfirmation.value)
  {
    SnakeCaseStateGroup2Part0Letters();
    SnakeCaseStateGroup2Part0Underscores();
  }

  lemma SnakeCaseStateGroup2Part1Letters()
    ensures LowerOrUnderscore(StatePasswordCreation.value)
    ensures LowerOrUnderscore(StatePreflight.value)
    ensures LowerOrUnderscore(StateProfileAccountDeleted.value)
  {
  }

  lemma SnakeCaseStateGroup2Part1Underscores()
    ensures NoDoubleUnderscore(StatePasswordCreation.value)
    ensures NoDoubleUnderscore(StatePreflight.value)
    ensures NoDoubleUnderscore(StateProfileAccountDeleted.value)
  {
  }

  lemma SnakeCaseStateGroup2Part1()
    ensures SnakeCase(StatePasswordCreation.value)
    ensures SnakeCase(StatePreflight.value)
    ensures SnakeCase(StateProfileAccountDeleted.value)
  {
    SnakeCaseStateGroup2Part1Letters();
    SnakeCaseStateGroup2Part1Underscores();
  }

  lemma SnakeCaseStateGroup2Part2Letters()
    ensures LowerOrUnderscore(StateProfileInit.value)
  {
  }

  lemma SnakeCaseStateGroup2Part2Underscores()
    ensures NoDoubleUnderscore(StateProfileInit.value)
  {
  }

  lemma SnakeCaseStateGroup2Part2()
    ensures SnakeCase(StateProfileInit.value)
  {
    SnakeCaseStateGroup2Part2Letters();
    SnakeCaseStateGroup2Part2Underscores();
  }

  lemma SnakeCaseStateGroup2()
    ensures forall a <- StateGroup2 :: SnakeCase(a.value)
  {
    SnakeCaseStateGroup2Part0();
    SnakeCaseStateGroup2Part1();
    SnakeCaseStateGroup2Part2();
  }

  lemma SnakeCaseStateGroup3Part0Letters()
    ensures LowerOrUnderscore(StateProfileWebauthnCredentialVerification.value)
  {
  }

  lemma SnakeCaseStateGroup3Part0Underscores()
    ensures NoDoubleUnderscore(StateProfileWebauthnCredentialVerification.value)
  {
  }

  lemma SnakeCaseStateGroup3Part0()
    ensures SnakeCase(StateProfileWebauthnCredentialVerification.value)
  {
    SnakeCaseStateGroup3Part0Letters();
    SnakeCaseStateGroup3Part0Underscores();
  }

  lemma SnakeCaseStateGroup3Part1Letters()
    ensures LowerOrUnderscore(StateRegisterPasskey.value)
    ensures LowerOrUnderscore(StateRegistrationInit.value)
  {
  }

  lemma SnakeCaseStateGroup3Part1Underscores()
    ensures NoDoubleUnderscore(StateRegisterPasskey.value)
    ensures NoDoubleUnderscore(StateRegistrationInit.value)
  {
  }

  lemma SnakeCaseStateGroup3Part1()
    ensures SnakeCase(StateRegisterPasskey.value)
    ensures SnakeCase(StateRegistrationInit.value)
  {
    SnakeCaseStateGroup3Part1Letters();
    SnakeCaseStateGroup3Part1Underscores();
  }

  lemma SnakeCaseStateGroup3Part2Letters()
    ensures LowerOrUnderscore(StateRegistrationMethodChooser.value)
  {
  }

  lemma SnakeCaseStateGroup3Part2Underscores()
    ensures NoDoubleUnderscore(StateRegistrationMethodChooser.value)
  {
  }

  lemma SnakeCaseStateGroup3Part2()
    ensures SnakeCase(StateRegistrationMethodChooser.value)
  {
    SnakeCaseStateGroup3Part2Letters();
    SnakeCaseStateGroup3Part2Underscores();
  }

  lemma SnakeCaseStateGroup3Part3Letters()
    ensures LowerOrUnderscore(StateSuccess.value)
  {
  }

  lemma SnakeCaseStateGroup3Part3Underscores()
    ensures NoDoubleUnderscore(StateSuccess.value)
  {
  }

  lemma SnakeCaseStateGroup3Part3()
    ensures SnakeCase(StateSuccess.value)
  {
    SnakeCaseStateGroup3Part3Letters();
    SnakeCaseStateGroup3Part3Underscores();
  }

  lemma SnakeCaseStateGroup3()
    ensures forall a <- StateGroup3 :: SnakeCase(a.value)
  {
    SnakeCaseStateGroup3Part0();
    SnakeCaseStateGroup3Part1();
    SnakeCaseStateGroup3Part2();
    SnakeCaseStateGroup3Part3();
  }

  lemma SnakeCaseStateGroup4Part0Letters()
    ensures LowerOrUnderscore(StateThirdPartyOAuth.value)
  {
  }

  lemma SnakeCaseStateGroup4Part0Underscores()
    ensures NoDoubleUnderscore(StateThirdPartyOAuth.value)
  {
  }

  lemma SnakeCaseStateGroup4Part0()
    ensures SnakeCase(StateThirdPartyOAuth.value)
  {
    SnakeCaseStateGroup4Part0Letters();
    SnakeCaseStateGroup4Part0Underscores();
  }

  lemma SnakeCaseStateGroup4()
    ensures forall a <- StateGroup4 :: SnakeCase(a.value)
  {
    SnakeCaseStateGroup4Part0();
  }

  /** Every value is non-empty lower-case snake case. */
  lemma AllStateNamesSnakeCase()
    ensures forall a <- AllStateNames :: SnakeCase(a.value)
  {
    SnakeCaseStateGroup0();
    SnakeCaseStateGroup1();
    SnakeCaseStateGroup2();
    SnakeCaseStateGroup3();
    SnakeCaseStateGroup4();
  }

  /** Spellings the flows match on, kept exactly; two states are spelt
      differently from what their identifiers suggest. */
  lemma KnownSpellings()
    ensures StateError.value == "error" && StateSuccess.value == "success"
    ensures StateProfileAccountDeleted.value == "account_deleted"
    ensures StateProfileAccountDeleted.value != "profile_account_deleted"
    ensures StateProfileWebauthnCredentialVerification.value == "webauthn_credential_verification"
    ensures StateProfileWebauthnCredentialVerification.value != "profile_webauthn_credential_verification"
  {
  }

  /** The third-party OAuth state and action share one spelling; they are kept
      apart only by having different types. */
  lemma ThirdPartyOAuthSharesSpelling()
    ensures StateThirdPartyOAuth.value == ActionNames.ActionThirdPartyOAuth.value
    ensures StateThirdPartyOAuth in AllStateNames
    ensures ActionNames.ActionThirdPartyOAuth in ActionNames.AllActionNames
  {
  }
}

=== FILE: utf8.dfy ===
/** Go's `len` on a string counts UTF-8 bytes, not characters. The model keeps
    strings as sequences of Unicode scalar values and measures them here. */
module Utf8 {

  /** Number of bytes UTF-8 uses to encode `c`. */
  function RuneLen(c: char): (n: nat)
    ensures 1 <= n <= 4
    ensures n == 1 <==> c as int < 0x80
  {
    if c as int < 0x80 then 1
    else if c as int < 0x800 then 2
    else if c as int < 0x1_0000 then 3
    else 4
  }

  /** Byte length of the UTF-8 encoding of `s`: what Go's `len(s)` returns. */
  function ByteLen(s: string): (n: nat)
    ensures |s| <= n <= 4 * |s|
    ensures n == 0 <==> s == ""
  {
    if |s| == 0 then 0 else RuneLen(s[0]) + ByteLen(s[1..])
  }

  predicate IsAscii(s: string) {
    forall k :: 0 <= k < |s| ==> s[k] as int < 0x80
  }

  /** Bytes and characters coincide exactly on ASCII text. */
  lemma {:induction false} ByteLenIsLengthIffAscii(s: string)
    ensures ByteLen(s) == |s| <==> IsAscii(s)
  {
    if |s| > 0 {
      ByteLenIsLengthIffAscii(s[1..]);
      if IsAscii(s[1..]) && s[0] as int < 0x80 {
        assert IsAscii(s) by {
          forall k | 0 <= k < |s| ensures s[k] as int < 0x80 {
            if k > 0 { assert s[k] == s[1..][k - 1]; }
          }
        }
      }
      if IsAscii(s) {
        assert IsAscii(s[1..]) by {
          forall k | 0 <= k < |s[1..]| ensures s[1..][k] as int < 0x80 {
            assert s[1..][k] == s[k + 1];
          }
        }
      }
    }
  }
}

=== FILE: vocabulary.dfy ===
/** Properties of the fixed name vocabularies the flows key on (state names,
    action names, stash paths), and the block-wise argument used to prove
    a long list of literals pairwise distinct. */
module Vocabulary {

  /** No value occurs twice in `s`. */
  ghost predicate PairwiseDistinct<T>(s: seq<T>) {
    forall i, j :: 0 <= i < j < |s| ==> s[i] != s[j]
  }

  /** No entry of `a` occurs in `b`. */
  ghost predicate Disjoint<T>(a: seq<T>, b: seq<T>) {
    forall i, j :: 0 <= i < |a| && 0 <= j < |b| ==> a[i] != b[j]
  }

  /** Two duplicate-free lists with no common entry concatenate to a
      duplicate-free list. */
  lemma DistinctConcat<T>(a: seq<T>, b: seq<T>)
    requires PairwiseDistinct(a) && PairwiseDistinct(b) && Disjoint(a, b)
    ensures PairwiseDistinct(a + b)
  {
    forall i, j | 0 <= i < j < |a + b| ensures (a + b)[i] != (a + b)[j] {
      if j < |a| {
        assert (a + b)[i] == a[i] && (a + b)[j] == a[j];
      } else if i < |a| {
        assert (a + b)[i] == a[i] && (a + b)[j] == b[j - |a|];
      } else {
        assert (a + b)[i] == b[i - |a|] && (a + b)[j] == b[j - |a|];
      }
    }
  }

  /** Disjointness from `c` extends over a concatenation. */
  lemma DisjointConcat<T>(a: seq<T>, b: seq<T>, c: seq<T>)
    requires Disjoint(a, c) && Disjoint(b, c)
    ensures Disjoint(a + b, c)
  {
    forall i, j | 0 <= i < |a + b| && 0 <= j < |c| ensures (a + b)[i] != c[j] {
      if i < |a| {
        assert (a + b)[i] == a[i];
      } else {
        assert (a + b)[i] == b[i - |a|];
      }
    }
  }

  predicate IsLower(c: char) {
    'a' <= c <= 'z'
  }

  predicate LowerOrUnderscore(s: string) {
    forall k :: 0 <= k < |s| ==> IsLower(s[k]) || s[k] == '_'
  }

  predicate NoDoubleUnderscore(s: string) {
    forall k :: 0 <= k < |s| - 1 && s[k] == '_' ==> s[k + 1] != '_'
  }

  /** Non-empty, only lower-case letters and underscores, neither beginning
      nor ending with an underscore, and no two underscores in a row. */
  predicate SnakeCase(s: string) {
    && |s| > 0 && s[0] != '_' && s[|s| - 1] != '_'
    && LowerOrUnderscore(s) && NoDoubleUnderscore(s)
  }

  /** Writing under path `p` overwrites the value under `q` as well: `p` is a
      proper dot-separated prefix of `q`. */
  predicate DottedPrefix(p: string, q: string) {
    |p| < |q| && q[..|p|] == p && q[|p|] == '.'
  }

  /** Two stash paths address overlapping parts of the stash document. */
  predicate Overlap(p: string, q: string) {
    p == q || DottedPrefix(p, q) || DottedPrefix(q, p)
  }

  predicate HasDot(s: string) {
    exists k :: 0 <= k < |s| && s[k] == '.'
  }

  /** `p` holds a dot at index `d` and nowhere else. */
  ghost predicate OnlyDotAt(p: string, d: int) {
    0 <= d < |p| && p[d] == '.' && forall k | 0 <= k < |p| && p[k] == '.' :: k == d
  }

  /** Every entry of `s` satisfies `P`. */
  ghost predicate All<T>(s: seq<T>, P: T -> bool) {
    forall k :: 0 <= k < |s| ==> P(s[k])
  }

  lemma AllConcat<T>(a: seq<T>, b: seq<T>, P: T -> bool)
    requires All(a, P) && All(b, P)
    ensures All(a + b, P)
  {
    forall k | 0 <= k < |a + b| ensures P((a + b)[k]) {
      if k < |a| {
        assert (a + b)[k] == a[k];
      } else {
        assert (a + b)[k] == b[k - |a|];
      }
    }
  }
}

=== FILE: wrappers.dfy ===
/** Optional values and results with an error. `Option` is how the model
    writes Go's nil pointers and comma-ok map reads; `Result` is Go's pair of
    a value and an error. */
module Wrappers {

  datatype Option<+T> = None | Some(value: T)

  datatype Result<+R, +E> = Success(value: R) | Failure(error: E)

  /** The value stored under `key`, if any: Go's `v, ok := m[key]`. */
  function Lookup<K, V>(m: map<K, V>, key: K): (r: Option<V>)
    ensures r.Some? <==> key in m
    ensures r.Some? ==> r.value == m[key]
  {
    if key in m then Some(m[key]) else None
  }
}
